=== FILE: README.md ===
# Economic dashboard core, modelled in Dafny

This project models the three pieces of sequential logic in the economic
dashboard repository and proves properties about them.

- **The economic-data aggregator** (`src/utils/mockData.ts`, module
  `Aggregator`). It holds the 18-record fixture `mockWorldBankData`: three
  countries, six years each. Five pure queries run over it:
  - `getGDPTrendData` filters by region, groups by year, sums GDP and sorts by year;
  - `getUnemploymentData` takes an optional inclusive year window and returns the latest year's records;
  - `getInflationData` returns the 2023 records;
  - `getAvailableYears` and `getAvailableRegions` de-duplicate.

  Each query is modelled over an arbitrary record sequence, and the `Get…`
  functions apply it to the fixture. Module `FixtureFacts` works out what
  each query returns on the fixture.
- **The client session** (`src/contexts/AuthContext.tsx`, module `Session`).
  The state is a `user` slot, an `isLoading` flag and the browser's
  key-value store. Four transitions move it:
  - the restore effect on mount;
  - `login`;
  - `signup`;
  - `logout`.

  A request is reduced to the outcome it settles with: a response with a status and a body, a network error, or the abort. Each transition is then a pure function.
- **The backend views** (`Backend/myproject/authapp/views.py`, module `AuthViews`).
  - `signup_view` is an ordered chain of checks that ends in an insert into a user table. The table is modelled as a set of (username, email) pairs.
  - `protected_view` reads a bearer token from the `Authorization` header.

  `validate_email` and `verify_jwt` are passed in as functions.

Supporting modules:
- `Wrappers` defines `Option`.
- `Decimal` covers the decimal form of an integer and JavaScript's string order. It is the form Python's `str` gives any integer. JavaScript's `toString` gives it only for safe integers, those below 2^53 in magnitude.
- `Sequences` covers `filter`, `map`, first-seen de-duplication and a stable sort.

Numbers in the records are exact `real`s, and years are `int`s. JavaScript's `Array.prototype.sort` is
modelled as a stable insertion sort. For a strict weak order, that gives the
unique result a stable sort may produce.

Two behaviours of the session code are easy to misread:
- **The restore effect does not degrade gracefully.** When `dashboard_user` holds text that is not JSON, `JSON.parse` throws out of the mount effect, and `isLoading` is never cleared. `Session.Restore` returns `ParseFailed` for it.
- **A 2xx login response with missing fields still logs the user in.** The code substitutes fallbacks for absent fields. Only an unparsable body or a `null` body makes `Session.Login` fail.

## Model

| member | source | states |
|---|---|---|
| Aggregator.SelectRegion | src/utils/mockData.ts:43-45 | a falsy region (absent or `""`) selects every record unchanged; otherwise exactly the records whose region equals it, each as many times as it occurs |
| Aggregator.SelectRegionConcat | src/utils/mockData.ts:43-45 | the selection keeps record order: selecting from two runs of records is selecting from each and concatenating |
| Aggregator.FindYear | src/utils/mockData.ts:48 | the result is the first index of a point dated with the year, or, when absent, no point has that year |
| Aggregator.AddGdpStep | src/utils/mockData.ts:47-55 | one reduce step keeps the accumulator invariant: one point per year seen so far, its value that year's GDP total, its name the year's decimal string |
| Aggregator.GroupByYear | src/utils/mockData.ts:47-55 | the reduce yields distinct years, exactly the records' years, and each point holds the year's GDP total |
| Aggregator.SortedTrend | src/utils/mockData.ts:57 | sorting the grouped points by `(a.year \|\| 0) - (b.year \|\| 0)` makes them strictly ascending by year, with the same points |
| Aggregator.YearBeforeIsStrictWeakOrder | src/utils/mockData.ts:57 | the year comparator is a consistent comparator (a strict weak order) |
| Aggregator.GdpTrend | src/utils/mockData.ts:42-58 | exactly one point per distinct year of the selected records, strictly ascending, each with that year's summed GDP and the year's decimal string as its name |
| Aggregator.GdpTrendUnknownRegion | src/utils/mockData.ts:43-45 | a non-empty region that no record has yields an empty series |
| Aggregator.Years | src/utils/mockData.ts:89 | the mapped years are the records' years position by position, and their set is the records' year set |
| Aggregator.YearWindow | src/utils/mockData.ts:61-65 | with both bounds truthy (non-zero), exactly the records inside the inclusive window, each as many times as it occurs; otherwise all records |
| Aggregator.YearWindowConcat | src/utils/mockData.ts:63-65 | the window keeps record order: windowing two runs of records is windowing each and concatenating |
| Aggregator.MaxYear | src/utils/mockData.ts:68 | `Math.max` of a non-empty working set is one of its years and no year exceeds it |
| Aggregator.LatestPoints | src/utils/mockData.ts:67-73 | on a non-empty working set, the records at the maximum year are exactly its latest records, and there is at least one |
| Aggregator.UnemploymentSnapshot | src/utils/mockData.ts:60-76 | empty exactly when the working set is; the series is the unemployment point of each latest record of the working set, one per record and in record order |
| Aggregator.LatestFilter | src/utils/mockData.ts:68 | keeping the records at the working set's maximum year is keeping its latest records, in record order |
| Aggregator.UnemploymentInvertedWindow | src/utils/mockData.ts:63-68 | a window with start after end yields an empty series instead of failing |
| Aggregator.UnemploymentWindowCoversAll | src/utils/mockData.ts:63-65 | a window containing every record gives the same series as no window |
| Aggregator.InflationSnapshot | src/utils/mockData.ts:78-86 | as many points as records dated 2023; every point comes from such a record, and every such record contributes its point |
| Aggregator.InflationSnoc | src/utils/mockData.ts:78-86 | the series is built in record order: a record dated 2023 appends its inflation point, any other record appends nothing |
| Aggregator.DatedCount | src/utils/mockData.ts:80 | filtering on a year keeps as many records as the year occurs among the records' years |
| Aggregator.YearStringLessIsStrictWeakOrder | src/utils/mockData.ts:89 | the default sort's string comparison of years is a strict weak order |
| Aggregator.AvailableYears | src/utils/mockData.ts:88-90 | duplicate-free, exactly the records' years, strictly ascending in string order |
| Aggregator.AvailableYearsNumeric | src/utils/mockData.ts:88-90 | when every year has four digits, the string order is the numeric order, so the years ascend numerically |
| Aggregator.Regions | src/utils/mockData.ts:93 | the mapped regions are the records' regions position by position |
| Aggregator.AvailableRegions | src/utils/mockData.ts:92-94 | duplicate-free, exactly the records' regions, listed in order of first occurrence |
| FixtureFacts.FixtureShape | src/utils/mockData.ts:19-40 | the fixture is three blocks of six records, years 2018–2023, in the regions North America, Asia and Europe |
| FixtureFacts.FixtureGdpTrend | src/utils/mockData.ts:42-58 | on the fixture the unfiltered trend has 6 points for 2018..2023, and the 2018 point is named "2018" with value 85.87+42.32+21.47 |
| FixtureFacts.FixtureGdp2018 | src/utils/mockData.ts:19-40 | the fixture's GDP total for 2018 is 85.87+42.32+21.47 |
| FixtureFacts.FixtureUnemployment | src/utils/mockData.ts:60-76 | on the fixture the series has three points, the first is United States at 3.7, and the window 2018–2023 changes nothing |
| FixtureFacts.FixtureInflation | src/utils/mockData.ts:78-86 | on the fixture there are three inflation points; the third is United Kingdom at 7.31 |
| FixtureFacts.FixtureAvailableYears | src/utils/mockData.ts:88-90 | on the fixture the years are exactly [2018, ..., 2023] |
| FixtureFacts.FixtureAvailableRegions | src/utils/mockData.ts:92-94 | on the fixture the regions are exactly ["North America", "Asia", "Europe"] |
| Sequences.MapSeq | src/utils/mockData.ts:69-73 | `Array.prototype.map` gives a sequence of the same length, holding the image of each element at its position |
| Sequences.Filter | src/utils/mockData.ts:44 | the filter keeps exactly the elements satisfying the predicate, with their multiplicities |
| Sequences.FilterConcat | src/utils/mockData.ts:64 | filtering distributes over concatenation, so the kept elements keep their relative order |
| Sequences.Distinct | src/utils/mockData.ts:93 | `[...new Set(s)]` is duplicate-free and has the same elements as `s` |
| Sequences.DistinctFirstSeenOrder | src/utils/mockData.ts:93 | the de-duplicated elements come in order of first occurrence |
| Sequences.SortBy | src/utils/mockData.ts:57 | `Array.prototype.sort` returns a permutation: the same multiset of elements |
| Sequences.SortByOrders | src/utils/mockData.ts:57 | the stable sort under a strict weak order is ordered, has the same elements, and keeps a duplicate-free input duplicate-free |
| Decimal.DecimalString | src/utils/mockData.ts:52 | `year.toString()` is non-empty and begins with `-` exactly when the number is negative |
| Decimal.ParseNatString | src/utils/mockData.ts:52 | the digits written for a non-negative number parse back to it |
| Decimal.SameLengthOrder | src/utils/mockData.ts:89 | for non-negative numbers written with equally many digits, string order is numeric order |
| Session.Restore | src/contexts/AuthContext.tsx:28-35 | starting with no user and `isLoading` set: non-empty text that is not JSON makes the effect throw; otherwise `isLoading` is cleared, the store is only read, and a user is set exactly when the entry parses to a truthy value, namely the user its fields describe |
| Session.UserRoundTrip | src/contexts/AuthContext.tsx:82 | a user written with `JSON.stringify` and read back with `JSON.parse` is the same user, and the stored object is truthy |
| Session.Login | src/contexts/AuthContext.tsx:37-104 | `isLoading` ends false; success exactly on a 2xx response with a parsed non-null body; a failure leaves the user and the store unchanged; a success sets the user and stores under `dashboard_user` a record that reads back as that user |
| Session.LoginFallbacks | src/contexts/AuthContext.tsx:72-77 | each field of the new user is the server's value when truthy, else `''`, or the submitted username for the name |
| Session.StorageText | src/contexts/AuthContext.tsx:83 | the string `setItem` stores for a value: a truthy value gives non-empty text, and a string gives itself |
| Session.LoginTokenWrite | src/contexts/AuthContext.tsx:81-83 | `dashboard_token` is written, as non-empty text, exactly when the token is truthy; otherwise its previous entry stays; no other key changes |
| Session.LoginThenRestore | src/contexts/AuthContext.tsx:31-35 | a session a successful login persisted is the one the next mount restores |
| Session.Signup | src/contexts/AuthContext.tsx:106-151 | success exactly on a 2xx response with a parsable body; the user and the store never change and `isLoading` ends false |
| Session.SignupAcceptsMore | src/contexts/AuthContext.tsx:64-77 | every outcome login accepts, signup accepts too; they differ exactly on a 2xx `null` body |
| Session.Logout | src/contexts/AuthContext.tsx:153-158 | no user, both keys removed, every other key unchanged |
| Session.LogoutIdempotent | src/contexts/AuthContext.tsx:153-158 | logging out twice is logging out once |
| Session.LogoutThenRestore | src/contexts/AuthContext.tsx:153-158 | after a logout the next mount restores no session |
| AuthViews.SignupView | Backend/myproject/authapp/views.py:42-77 | the checks run in order (method, JSON, required fields, email format, username, email) and the first failure decides the 400 message; 200 exactly when all pass, then the table gains exactly the new account, which was absent; every failure leaves the table unchanged |
| AuthViews.SignupKeepsAccountsUnique | Backend/myproject/authapp/views.py:62-69 | a table with unique usernames and emails keeps them unique |
| AuthViews.SignupReplayRefused | Backend/myproject/authapp/views.py:62-63 | replaying an accepted signup is refused because the username is taken |
| AuthViews.Split | Backend/myproject/authapp/views.py:86 | `split(' ')` gives at least one piece and no piece contains the separator |
| AuthViews.JoinSplit | Backend/myproject/authapp/views.py:86 | joining the pieces with the separator gives back the original header |
| AuthViews.BearerToken | Backend/myproject/authapp/views.py:86 | the second piece of a `Bearer ` header is the text after the prefix, up to the next space |
| AuthViews.ProtectedView | Backend/myproject/authapp/views.py:80-92 | non-GET gives 405; an absent or non-`Bearer ` header gives 401; 200 exactly when `verify_jwt` of the token yields a non-empty payload, greeting its `id`; otherwise 401 with the token message |
| AuthViews.BearerRoundTrip | Backend/myproject/authapp/views.py:82-92 | a space-free token sent as `Bearer <token>` is exactly the token verified: no or an empty payload gives 401 with the token message, a non-empty payload gives 200 with the greeting |

## Left out

- `login_view` (`views.py`) is left out. It is not routed, since `login/` maps to a library token view. It is also not well-formed: a non-POST request reaches an unbound `user`.
- `Backend/myproject/authapp/utils.py` (JWT creation and checking) is not part of this model. `verify_jwt` is a parameter.
- `urls.py`, the React pages and components, and the chart wrappers are presentation or routing.
- `ProtectedRoute` and the dashboard summary statistics are left out. The statistics use float division.
- The real `fetch`, the `AbortController` and ten-second timer, and console logging are left out. A request is its settled outcome.
- Overlapping `login` calls are concurrency and are not modelled. The intermediate `isLoading = true` while a request is in flight is not modelled either; only the settled state is.
- Floating-point rounding of GDP sums is not modelled; numbers are exact reals. Numeric JSON fields are integers, and fractional and `NaN` values are not modelled.
- Response fields holding nested objects or arrays are not modelled.
- Session.Restore: a stored JSON value is held as the value it parses to, not as text. A falsy value (`null`, `0`, `false`, `""`) gives no user; every reader of `user` treats these alike. A truthy value gives the user its `id`, `username`, `email` and `token` describe. For `{}`, a number or an array, that is a user whose fields are all `undefined`. Keys other than the four are not kept.
- Session.Login: writes to `localStorage` are assumed not to throw. In the code, `setUser` runs before `setItem`. A quota or disabled-storage error would be caught and return `false` with the user already set.
- Session.LoginTokenWrite: the token entry is kept as its text even when that text happens to be JSON. Nothing in the code parses it.
- AuthViews.SignupView: Django's `create_user` is taken to store the username and email exactly as given. In fact it lower-cases the email's domain and NFKC-normalises the username. A username that collides only after normalisation then fails the database's unique constraint, giving a 500 the model does not have.
- AuthViews.SignupKeepsAccountsUnique: holds only under that exact-storage assumption. The code compares the raw email with stored, normalised ones. So with `("u1", "a@x.com")` stored, signing up `("u2", "a@X.com")` passes both checks and stores a second `a@x.com`.
- AuthViews.ProtectedView: a claim value is an integer, a string or a boolean. `null`, float, list and object claims are not modelled; Python's `str()` would render them differently in the greeting.
- Password hashing and database collation are not modelled. `validate_email` is a parameter.
- Years and numeric JSON values are unbounded integers. The code's values are JavaScript numbers, exact and printed in plain decimal only as safe integers.
- Non-string JSON values in a signup body are not modelled; the body's fields are strings.

=== FILE: aggregator.dfy ===
/** The economic-data aggregator of `src/utils/mockData.ts`: pure functions
    that turn an ordered, read-only sequence of country-year records into
    chart series. Each operation is stated over an arbitrary record sequence;
    the `Get…` functions apply it to the 18-record fixture as the source does. */
module Aggregator {
  import opened Wrappers
  import opened Sequences
  import Decimal

  /** One country-year fact (`WorldBankData`). Numbers are exact reals: the
      aggregation logic, not floating-point rounding, is what is modelled. */
  datatype EconomicRecord = EconomicRecord(
    year: int,
    gdp: real,
    population: real,
    inflation: real,
    unemployment: real,
    region: string,
    country: string)

  /** A chart-ready point (`ChartDataPoint`); `year` and `category` are optional. */
  datatype ChartPoint = ChartPoint(name: string, value: real, year: Option<int>, category: Option<string>)

  /** `mockWorldBankData`: three countries, six years each, in this order. */
  const Fixture: seq<EconomicRecord> := [
    EconomicRecord(2018, 85.87, 329.5, 2.44, 3.9, "North America", "United States"),
    EconomicRecord(2019, 87.75, 331.9, 1.81, 3.7, "North America", "United States"),
    EconomicRecord(2020, 84.72, 332.6, 1.25, 8.1, "North America", "United States"),
    EconomicRecord(2021, 89.12, 333.3, 4.70, 5.4, "North America", "United States"),
    EconomicRecord(2022, 91.38, 334.2, 8.00, 3.6, "North America", "United States"),
    EconomicRecord(2023, 93.47, 335.8, 4.12, 3.7, "North America", "United States"),
    EconomicRecord(2018, 42.32, 1380.0, 2.07, 3.8, "Asia", "China"),
    EconomicRecord(2019, 44.83, 1398.0, 2.88, 3.8, "Asia", "China"),
    EconomicRecord(2020, 43.96, 1411.8, 2.42, 4.2, "Asia", "China"),
    EconomicRecord(2021, 48.52, 1425.9, 0.98, 3.9, "Asia", "China"),
    EconomicRecord(2022, 49.82, 1439.3, 1.97, 4.1, "Asia", "China"),
    EconomicRecord(2023, 51.24, 1453.2, 0.23, 4.3, "Asia", "China"),
    EconomicRecord(2018, 21.47, 67.1, 2.05, 2.3, "Europe", "United Kingdom"),
    EconomicRecord(2019, 22.13, 67.5, 1.79, 2.1, "Europe", "United Kingdom"),
    EconomicRecord(2020, 20.67, 67.9, 0.85, 4.5, "Europe", "United Kingdom"),
    EconomicRecord(2021, 22.89, 68.2, 2.59, 4.6, "Europe", "United Kingdom"),
    EconomicRecord(2022, 23.47, 68.5, 9.06, 3.7, "Europe", "United Kingdom"),
    EconomicRecord(2023, 24.15, 68.8, 7.31, 4.2, "Europe", "United Kingdom")
  ]

  /** The years the records mention. */
  function RecordYears(rs: seq<EconomicRecord>): set<int> {
    set x | x in rs :: x.year
  }

  /** The records' years, position by position. */
  function Years(rs: seq<EconomicRecord>): (ys: seq<int>)
    ensures |ys| == |rs|
    ensures forall i :: 0 <= i < |rs| ==> ys[i] == rs[i].year
    ensures forall y :: y in ys <==> y in RecordYears(rs)
  {
    var ys := MapSeq(rs, (x: EconomicRecord) => x.year);
    assert forall y :: y in RecordYears(rs) ==> y in ys by {
      forall y | y in RecordYears(rs) ensures y in ys {
        var x :| x in rs && x.year == y;
        var i :| 0 <= i < |rs| && rs[i] == x;
        assert ys[i] == y;
      }
    }
    ys
  }

  lemma RecordYearsSnoc(rs: seq<EconomicRecord>, x: EconomicRecord)
    ensures RecordYears(rs + [x]) == RecordYears(rs) + {x.year}
  {
  }

  lemma YearsSnoc(rs: seq<EconomicRecord>, x: EconomicRecord)
    ensures Years(rs + [x]) == Years(rs) + [x.year]
  {
  }

  /** The years carried by a series' points. */
  function PointYears(ps: seq<ChartPoint>): set<int> {
    set p | p in ps && p.year.Some? :: p.year.value
  }

  // ---------------------------------------------------------------------------
  // getGDPTrendData
  // ---------------------------------------------------------------------------

  /** An optional region argument is a filter only when it is truthy: neither
      `undefined` nor the empty string. */
  predicate RegionGiven(region: Option<string>) {
    region.Some? && region.value != ""
  }

  /** The records `getGDPTrendData` aggregates: all of them, or exactly those of
      the given region, in record order. */
  function SelectRegion(rs: seq<EconomicRecord>, region: Option<string>): (sel: seq<EconomicRecord>)
    ensures forall x :: x in sel <==> x in rs && (!RegionGiven(region) || x.region == region.value)
    ensures forall x {:trigger multiset(sel)[x]} ::
      multiset(sel)[x] == if !RegionGiven(region) || x.region == region.value then multiset(rs)[x] else 0
    ensures !RegionGiven(region) ==> sel == rs
  {
    if RegionGiven(region) then
      Filter(rs, InRegion(region.value))
    else rs
  }

  /** The selection keeps record order: selecting from two runs of records is
      selecting from each and concatenating. */
  lemma SelectRegionConcat(rs: seq<EconomicRecord>, qs: seq<EconomicRecord>, region: Option<string>)
    ensures SelectRegion(rs + qs, region) == SelectRegion(rs, region) + SelectRegion(qs, region)
  {
    if RegionGiven(region) {
      FilterConcat(rs, qs, InRegion(region.value));
    }
  }

  /** The filter predicate `d => d.region === region`. */
  function InRegion(region: string): EconomicRecord -> bool {
    (x: EconomicRecord) => x.region == region
  }

  /** Reference definition: the GDP of all records dated `y`, summed in record order. */
  function SumGdp(rs: seq<EconomicRecord>, y: int): real
    decreases |rs|
  {
    if |rs| == 0 then 0.0
    else SumGdp(rs[..|rs| - 1], y) + (if rs[|rs| - 1].year == y then rs[|rs| - 1].gdp else 0.0)
  }

  lemma SumGdpSnoc(rs: seq<EconomicRecord>, x: EconomicRecord, y: int)
    ensures SumGdp(rs + [x], y) == SumGdp(rs, y) + (if x.year == y then x.gdp else 0.0)
  {
    assert (rs + [x])[..|rs|] == rs;
  }

  /** A year no record mentions has nothing to sum. */
  lemma {:induction false} SumGdpAbsent(rs: seq<EconomicRecord>, y: int)
    requires y !in RecordYears(rs)
    ensures SumGdp(rs, y) == 0.0
    decreases |rs|
  {
    if |rs| > 0 {
      var n := |rs| - 1;
      assert rs == rs[..n] + [rs[n]];
      assert RecordYears(rs[..n]) <= RecordYears(rs);
      SumGdpAbsent(rs[..n], y);
    }
  }

  /** The point `getGDPTrendData` promises for year `y`. */
  function YearPoint(rs: seq<EconomicRecord>, y: int): ChartPoint {
    ChartPoint(Decimal.DecimalString(y), SumGdp(rs, y), Some(y), None)
  }

  /** No two points of the series are dated alike. */
  predicate YearsDistinct(ps: seq<ChartPoint>) {
    forall i, j :: 0 <= i < j < |ps| ==> ps[i].year != ps[j].year
  }

  /** `acc.find(item => item.year === year)`: the first point dated `y`, if any. */
  function FindYear(acc: seq<ChartPoint>, y: int): (k: Option<nat>)
    ensures k.Some? ==> k.value < |acc| && acc[k.value].year == Some(y)
    ensures k.Some? ==> forall i :: 0 <= i < k.value ==> acc[i].year != Some(y)
    ensures k.None? ==> forall i :: 0 <= i < |acc| ==> acc[i].year != Some(y)
    decreases |acc|
  {
    if |acc| == 0 then None
    else if acc[0].year == Some(y) then Some(0)
    else
      match FindYear(acc[1..], y)
      case Some(k) => Some(k + 1)
      case None => None
  }

  /** One step of the `reduce`: add the record's GDP to its year's point, or
      open a new point for a year not seen before. */
  function AddGdp(acc: seq<ChartPoint>, x: EconomicRecord): seq<ChartPoint> {
    match FindYear(acc, x.year)
    case Some(k) => acc[k := acc[k].(value := acc[k].value + x.gdp)]
    case None => acc + [ChartPoint(Decimal.DecimalString(x.year), x.gdp, Some(x.year), None)]
  }

  /** What the `reduce` has established after consuming the records `rs`. */
  predicate GroupedByYear(rs: seq<EconomicRecord>, acc: seq<ChartPoint>) {
    && YearsDistinct(acc)
    && (forall i :: 0 <= i < |acc| ==> acc[i].year.Some? && acc[i] == YearPoint(rs, acc[i].year.value))
    && PointYears(acc) == RecordYears(rs)
  }

  /** A `reduce` step on a year already present adds the GDP to that point only. */
  lemma AddGdpFound(pre: seq<EconomicRecord>, x: EconomicRecord, acc: seq<ChartPoint>, k: nat)
    requires GroupedByYear(pre, acc)
    requires k < |acc| && acc[k].year == Some(x.year)
    ensures GroupedByYear(pre + [x], acc[k := acc[k].(value := acc[k].value + x.gdp)])
  {
    var rs := pre + [x];
    var next := acc[k := acc[k].(value := acc[k].value + x.gdp)];
    assert forall i :: 0 <= i < |next| ==> next[i].year == acc[i].year;
    forall i | 0 <= i < |next|
      ensures next[i] == YearPoint(rs, next[i].year.value)
    {
      SumGdpSnoc(pre, x, acc[i].year.value);
    }
    RetotalKeepsYears(acc, k, acc[k].value + x.gdp);
    assert x.year in PointYears(acc) by {
      assert acc[k] in acc;
    }
    RecordYearsSnoc(pre, x);
  }

  /** Changing one point's value leaves the series' years as they were. */
  lemma RetotalKeepsYears(acc: seq<ChartPoint>, k: nat, v: real)
    requires k < |acc|
    ensures PointYears(acc[k := acc[k].(value := v)]) == PointYears(acc)
  {
    var next := acc[k := acc[k].(value := v)];
    forall y | y in PointYears(next) ensures y in PointYears(acc) {
      var p :| p in next && p.year == Some(y);
      var i :| 0 <= i < |next| && next[i] == p;
      assert acc[i] in acc;
    }
    forall y | y in PointYears(acc) ensures y in PointYears(next) {
      var p :| p in acc && p.year == Some(y);
      var i :| 0 <= i < |acc| && acc[i] == p;
      assert next[i] in next;
    }
  }

  /** A `reduce` step on a new year appends that year's point. */
  lemma AddGdpNew(pre: seq<EconomicRecord>, x: EconomicRecord, acc: seq<ChartPoint>)
    requires GroupedByYear(pre, acc)
    requires forall i :: 0 <= i < |acc| ==> acc[i].year != Some(x.year)
    ensures GroupedByYear(pre + [x], acc + [ChartPoint(Decimal.DecimalString(x.year), x.gdp, Some(x.year), None)])
  {
    var rs := pre + [x];
    var point := ChartPoint(Decimal.DecimalString(x.year), x.gdp, Some(x.year), None);
    var next := acc + [point];
    assert x.year !in PointYears(acc);
    SumGdpAbsent(pre, x.year);
    forall i | 0 <= i < |next|
      ensures next[i] == YearPoint(rs, next[i].year.value)
    {
      SumGdpSnoc(pre, x, next[i].year.value);
    }
    assert PointYears(next) == PointYears(acc) + {x.year};
    RecordYearsSnoc(pre, x);
  }

  lemma AddGdpStep(pre: seq<EconomicRecord>, x: EconomicRecord, acc: seq<ChartPoint>)
    requires GroupedByYear(pre, acc)
    ensures GroupedByYear(pre + [x], AddGdp(acc, x))
  {
    match FindYear(acc, x.year)
    case Some(k) =>
      assert AddGdp(acc, x) == acc[k := acc[k].(value := acc[k].value + x.gdp)];
      AddGdpFound(pre, x, acc, k);
    case None =>
      assert AddGdp(acc, x) == acc + [ChartPoint(Decimal.DecimalString(x.year), x.gdp, Some(x.year), None)];
      AddGdpNew(pre, x, acc);
  }

  /** The `reduce` of `getGDPTrendData`: one point per distinct year, whose
      value is that year's GDP total. The order of the points is left open:
      the series is sorted afterwards. */
  function GroupByYear(rs: seq<EconomicRecord>): (acc: seq<ChartPoint>)
    ensures GroupedByYear(rs, acc)
    decreases |rs|
  {
    if |rs| == 0 then []
    else
      var n := |rs| - 1;
      var acc := GroupByYear(rs[..n]);
      assert rs == rs[..n] + [rs[n]];
      AddGdpStep(rs[..n], rs[n], acc);
      AddGdp(acc, rs[n])
  }

  /** The comparator `(a, b) => (a.year || 0) - (b.year || 0)`, read as
      "`a` sorts strictly before `b`". */
  predicate YearBefore(a: ChartPoint, b: ChartPoint) {
    a.year.GetOr(0) < b.year.GetOr(0)
  }

  lemma YearBeforeIsStrictWeakOrder()
    ensures StrictWeakOrder(YearBefore)
  {
  }

  /** Sorting the grouped points yields the promised series. */
  lemma SortedTrend(sel: seq<EconomicRecord>, acc: seq<ChartPoint>)
    requires GroupedByYear(sel, acc)
    ensures var r := SortBy(acc, YearBefore);
      && (forall i :: 0 <= i < |r| ==> r[i].year.Some? && r[i] == YearPoint(sel, r[i].year.value))
      && (forall i, j :: 0 <= i < j < |r| ==> r[i].year.value < r[j].year.value)
      && PointYears(r) == RecordYears(sel)
  {
    var r := SortBy(acc, YearBefore);
    YearBeforeIsStrictWeakOrder();
    assert NoDuplicates(acc);
    SortByOrders(acc, YearBefore);
    assert forall q :: q in acc ==> q.year.Some? && q == YearPoint(sel, q.year.value);
    forall i | 0 <= i < |r| ensures r[i].year.Some? && r[i] == YearPoint(sel, r[i].year.value) {
      assert r[i] in acc;
    }
    DistinctYearsAscend(r);
    SameMembersSameYears(r, acc);
  }

  /** Points sorted by year with no two dated alike are strictly ascending. */
  lemma DistinctYearsAscend(r: seq<ChartPoint>)
    requires forall i :: 0 <= i < |r| ==> r[i].year.Some?
    requires NoDuplicates(r) && SortedBy(r, YearBefore)
    requires forall i, j :: 0 <= i < j < |r| && r[i] != r[j] ==> r[i].year != r[j].year
    ensures forall i, j :: 0 <= i < j < |r| ==> r[i].year.value < r[j].year.value
  {
    forall i, j | 0 <= i < j < |r| ensures r[i].year.value < r[j].year.value {
      assert r[i] != r[j];
      assert !YearBefore(r[j], r[i]);
    }
  }

  lemma SameMembersSameYears(a: seq<ChartPoint>, b: seq<ChartPoint>)
    requires forall q :: q in a <==> q in b
    ensures PointYears(a) == PointYears(b)
  {
  }

  /** `getGDPTrendData(region)` over the records `rs`: exactly one point per
      distinct year of the selected records, strictly ascending by year, each
      holding that year's GDP total under the year's decimal name. */
  function GdpTrend(rs: seq<EconomicRecord>, region: Option<string>): (r: seq<ChartPoint>)
    ensures forall i :: 0 <= i < |r| ==>
      r[i].year.Some? && r[i] == YearPoint(SelectRegion(rs, region), r[i].year.value)
    ensures forall i, j :: 0 <= i < j < |r| ==> r[i].year.value < r[j].year.value
    ensures PointYears(r) == RecordYears(SelectRegion(rs, region))
  {
    var sel := SelectRegion(rs, region);
    var acc := GroupByYear(sel);
    SortedTrend(sel, acc);
    SortBy(acc, YearBefore)
  }

  function GetGdpTrendData(region: Option<string>): seq<ChartPoint> {
    GdpTrend(Fixture, region)
  }

  /** A region no record belongs to yields an empty series. */
  lemma GdpTrendUnknownRegion(rs: seq<EconomicRecord>, region: string)
    requires region != ""
    requires forall x :: x in rs ==> x.region != region
    ensures GdpTrend(rs, Some(region)) == []
  {
    assert RecordYears(SelectRegion(rs, Some(region))) == {};
  }

  // ---------------------------------------------------------------------------
  // getUnemploymentData
  // ---------------------------------------------------------------------------

  /** JavaScript truthiness of an optional year: present and non-zero. */
  predicate YearGiven(y: Option<int>) {
    y.Some? && y.value != 0
  }

  /** The filter predicate `d => d.year >= startYear && d.year <= endYear`. */
  function InWindow(startYear: int, endYear: int): EconomicRecord -> bool {
    (x: EconomicRecord) => x.year >= startYear && x.year <= endYear
  }

  /** The filter predicate `d => d.year === year`. */
  function AtYear(year: int): EconomicRecord -> bool {
    (x: EconomicRecord) => x.year == year
  }

  /** The working set: the inclusive window `[startYear, endYear]` when both
      bounds are truthy, otherwise every record. */
  function YearWindow(rs: seq<EconomicRecord>, startYear: Option<int>, endYear: Option<int>): (ws: seq<EconomicRecord>)
    ensures forall x :: x in ws <==>
      x in rs && (YearGiven(startYear) && YearGiven(endYear) ==> startYear.value <= x.year <= endYear.value)
    ensures forall x {:trigger multiset(ws)[x]} ::
      multiset(ws)[x] ==
        if YearGiven(startYear) && YearGiven(endYear) ==> startYear.value <= x.year <= endYear.value
        then multiset(rs)[x] else 0
    ensures !(YearGiven(startYear) && YearGiven(endYear)) ==> ws == rs
  {
    if YearGiven(startYear) && YearGiven(endYear) then
      Filter(rs, InWindow(startYear.value, endYear.value))
    else rs
  }

  /** The window keeps record order: windowing two runs of records is
      windowing each and concatenating. */
  lemma YearWindowConcat(rs: seq<EconomicRecord>, qs: seq<EconomicRecord>, startYear: Option<int>, endYear: Option<int>)
    ensures YearWindow(rs + qs, startYear, endYear) == YearWindow(rs, startYear, endYear) + YearWindow(qs, startYear, endYear)
  {
    if YearGiven(startYear) && YearGiven(endYear) {
      FilterConcat(rs, qs, InWindow(startYear.value, endYear.value));
    }
  }

  /** `Math.max(...years)` over a non-empty working set. */
  function MaxYear(rs: seq<EconomicRecord>): (m: int)
    requires |rs| > 0
    ensures m in RecordYears(rs)
    ensures forall x :: x in rs ==> x.year <= m
    decreases |rs|
  {
    if |rs| == 1 then rs[0].year
    else
      var n := |rs| - 1;
      assert rs == rs[..n] + [rs[n]];
      var m := MaxYear(rs[..n]);
      if rs[n].year > m then rs[n].year else m
  }

  /** `x` belongs to the working set and no record of it is later. */
  predicate IsLatest(ws: seq<EconomicRecord>, x: EconomicRecord) {
    x in ws && forall y :: y in ws ==> y.year <= x.year
  }

  /** `IsLatest` as a filter predicate. */
  function Latest(ws: seq<EconomicRecord>): EconomicRecord -> bool {
    (x: EconomicRecord) => IsLatest(ws, x)
  }

  function UnemploymentPoint(x: EconomicRecord): ChartPoint {
    ChartPoint(x.country, x.unemployment, None, Some(x.region))
  }

  /** `getUnemploymentData(startYear, endYear)` over `rs`: the unemployment of
      every working-set record dated at the working set's latest year, and
      nothing else; an empty working set gives an empty series (the source's
      `Math.max()` is then `-Infinity`, which no year equals). */
  function UnemploymentSnapshot(rs: seq<EconomicRecord>, startYear: Option<int>, endYear: Option<int>): (r: seq<ChartPoint>)
    ensures YearWindow(rs, startYear, endYear) == [] <==> r == []
    ensures forall p :: p in r ==>
      exists x :: IsLatest(YearWindow(rs, startYear, endYear), x) && p == UnemploymentPoint(x)
    ensures forall x :: IsLatest(YearWindow(rs, startYear, endYear), x) ==> UnemploymentPoint(x) in r
    ensures var ws := YearWindow(rs, startYear, endYear);
      r == MapSeq(Filter(ws, Latest(ws)), UnemploymentPoint)
  {
    var ws := YearWindow(rs, startYear, endYear);
    if |ws| == 0 then
      assert Filter(ws, Latest(ws)) == [];
      []
    else
      LatestPoints(ws);
      LatestFilter(ws);
      MapSeq(Filter(ws, AtYear(MaxYear(ws))), UnemploymentPoint)
  }

  /** Keeping the records at the maximum year is keeping the latest records,
      one for one and in record order. */
  lemma LatestFilter(ws: seq<EconomicRecord>)
    requires |ws| > 0
    ensures Filter(ws, AtYear(MaxYear(ws))) == Filter(ws, Latest(ws))
  {
    var m := MaxYear(ws);
    forall x | x in ws ensures AtYear(m)(x) == Latest(ws)(x) {
      LatestAtMaxYear(ws);
      assert x in Filter(ws, AtYear(m)) <==> x.year == m;
    }
    FilterAgree(ws, AtYear(m), Latest(ws));
  }

  /** The records at the latest year of a non-empty working set are exactly
      its latest records, and there is at least one. */
  lemma LatestPoints(ws: seq<EconomicRecord>)
    requires |ws| > 0
    ensures var r := MapSeq(Filter(ws, AtYear(MaxYear(ws))), UnemploymentPoint);
      && r != []
      && (forall p :: p in r ==> exists x :: IsLatest(ws, x) && p == UnemploymentPoint(x))
      && (forall x :: IsLatest(ws, x) ==> UnemploymentPoint(x) in r)
  {
    var m := MaxYear(ws);
    var latest := Filter(ws, AtYear(m));
    LatestAtMaxYear(ws);
    MapSeqMembers(latest, UnemploymentPoint);
    var x :| x in ws && x.year == m;
    assert UnemploymentPoint(x) in MapSeq(latest, UnemploymentPoint);
  }

  /** The latest records of a non-empty working set are those dated at its maximum year. */
  lemma LatestAtMaxYear(ws: seq<EconomicRecord>)
    requires |ws| > 0
    ensures forall x :: IsLatest(ws, x) <==> x in Filter(ws, AtYear(MaxYear(ws)))
  {
  }

  function GetUnemploymentData(startYear: Option<int>, endYear: Option<int>): seq<ChartPoint> {
    UnemploymentSnapshot(Fixture, startYear, endYear)
  }

  /** A window whose start lies after its end selects nothing, so the series
      is empty rather than an error. */
  lemma UnemploymentInvertedWindow(rs: seq<EconomicRecord>, startYear: int, endYear: int)
    requires startYear != 0 && endYear != 0 && startYear > endYear
    ensures UnemploymentSnapshot(rs, Some(startYear), Some(endYear)) == []
  {
    var ws := YearWindow(rs, Some(startYear), Some(endYear));
    assert forall x :: x !in ws;
  }

  /** A window that already holds every record changes nothing: the series is
      the one computed over all records. */
  lemma UnemploymentWindowCoversAll(rs: seq<EconomicRecord>, startYear: int, endYear: int)
    requires startYear != 0 && endYear != 0
    requires forall x :: x in rs ==> startYear <= x.year <= endYear
    ensures UnemploymentSnapshot(rs, Some(startYear), Some(endYear)) == UnemploymentSnapshot(rs, None, None)
  {
    FilterAll(rs, InWindow(startYear, endYear));
  }

  // ---------------------------------------------------------------------------
  // getInflationData
  // ---------------------------------------------------------------------------

  /** The literal year `getInflationData` reports. */
  const InflationYear: int := 2023

  function InflationPoint(x: EconomicRecord): ChartPoint {
    ChartPoint(x.country, x.inflation, None, Some(x.region))
  }

  /** `getInflationData()` over `rs`: one inflation point per record dated 2023,
      as many times as the record occurs, and none for any other year. */
  function InflationSnapshot(rs: seq<EconomicRecord>): (r: seq<ChartPoint>)
    ensures |r| == multiset(Years(rs))[InflationYear]
    ensures forall p :: p in r ==> exists x :: x in rs && x.year == InflationYear && p == InflationPoint(x)
    ensures forall x :: x in rs && x.year == InflationYear ==> InflationPoint(x) in r
  {
    var dated := Filter(rs, AtYear(InflationYear));
    var r := MapSeq(dated, InflationPoint);
    assert forall p :: p in r ==> exists x :: x in rs && x.year == InflationYear && p == InflationPoint(x) by {
      forall p | p in r ensures exists x :: x in rs && x.year == InflationYear && p == InflationPoint(x) {
        var i :| 0 <= i < |r| && r[i] == p;
        assert dated[i] in dated;
      }
    }
    assert forall x :: x in dated ==> InflationPoint(x) in r by {
      forall x | x in dated ensures InflationPoint(x) in r {
        var i :| 0 <= i < |dated| && dated[i] == x;
        assert r[i] == InflationPoint(x);
      }
    }
    DatedCount(rs, InflationYear);
    r
  }

  /** Counting the records dated `y` is counting `y` among the records' years. */
  lemma {:induction false} DatedCount(rs: seq<EconomicRecord>, y: int)
    ensures |Filter(rs, AtYear(y))| == multiset(Years(rs))[y]
    decreases |rs|
  {
    if |rs| > 0 {
      var n := |rs| - 1;
      assert rs == rs[..n] + [rs[n]];
      FilterSnoc(rs[..n], rs[n], AtYear(y));
      DatedCount(rs[..n], y);
      YearsSnoc(rs[..n], rs[n]);
    }
  }

  /** The series is built record by record, in record order: a record dated
      2023 appends its point, any other record appends nothing. With the empty
      case (`|r| == 0` for no records) this fixes the whole series. */
  lemma InflationSnoc(rs: seq<EconomicRecord>, x: EconomicRecord)
    ensures InflationSnapshot(rs + [x])
      == InflationSnapshot(rs) + (if x.year == InflationYear then [InflationPoint(x)] else [])
  {
    var tail := if x.year == InflationYear then [x] else [];
    FilterSnoc(rs, x, AtYear(InflationYear));
    MapSeqConcat(Filter(rs, AtYear(InflationYear)), tail, InflationPoint);
    assert MapSeq(tail, InflationPoint) == if x.year == InflationYear then [InflationPoint(x)] else [];
  }

  function GetInflationData(): seq<ChartPoint> {
    InflationSnapshot(Fixture)
  }

  // ---------------------------------------------------------------------------
  // getAvailableYears
  // ---------------------------------------------------------------------------

  /** `a` sorts before `b` under the default comparator of `Array.prototype.sort`,
      which compares the numbers' string forms. */
  predicate YearStringLess(a: int, b: int) {
    Decimal.LexLess(Decimal.DecimalString(a), Decimal.DecimalString(b))
  }

  /** JavaScript's string comparison is a strict weak order on years' decimal forms. */
  lemma YearStringLessIsStrictWeakOrder()
    ensures StrictWeakOrder(YearStringLess)
  {
    forall a, b | YearStringLess(a, b) ensures !YearStringLess(b, a) {
      if YearStringLess(b, a) {
        Decimal.LexLessTransitive(Decimal.DecimalString(a), Decimal.DecimalString(b), Decimal.DecimalString(a));
        Decimal.LexLessIrreflexive(Decimal.DecimalString(a));
      }
    }
    forall a, b, c | !YearStringLess(b, a) && !YearStringLess(c, b) ensures !YearStringLess(c, a) {
      var sa, sb, sc := Decimal.DecimalString(a), Decimal.DecimalString(b), Decimal.DecimalString(c);
      if Decimal.LexLess(sc, sa) {
        if sa != sb {
          Decimal.LexLessTotal(sa, sb);
          Decimal.LexLessTransitive(sc, sa, sb);
        }
      }
    }
  }

  /** `getAvailableYears()` over `rs`: each year of the records exactly once,
      strictly ascending in the string order JavaScript's default sort uses. */
  function AvailableYears(rs: seq<EconomicRecord>): (ys: seq<int>)
    ensures NoDuplicates(ys)
    ensures forall y :: y in ys <==> y in RecordYears(rs)
    ensures forall i, j :: 0 <= i < j < |ys| ==> YearStringLess(ys[i], ys[j])
  {
    var years := Years(rs);
    var ys := SortBy(Distinct(years), YearStringLess);
    YearStringLessIsStrictWeakOrder();
    SortByOrders(Distinct(years), YearStringLess);
    assert forall i, j :: 0 <= i < j < |ys| ==> YearStringLess(ys[i], ys[j]) by {
      forall i, j | 0 <= i < j < |ys| ensures YearStringLess(ys[i], ys[j]) {
        var a, b := Decimal.DecimalString(ys[i]), Decimal.DecimalString(ys[j]);
        if a != b {
          Decimal.LexLessTotal(a, b);
        } else {
          Decimal.DecimalStringInjective(ys[i], ys[j]);
        }
      }
    }
    ys
  }

  /** When every year has four digits, string order is numeric order, so the
      years come out strictly ascending as numbers. */
  lemma AvailableYearsNumeric(rs: seq<EconomicRecord>)
    requires forall x :: x in rs ==> 1000 <= x.year <= 9999
    ensures forall i, j :: 0 <= i < j < |AvailableYears(rs)| ==> AvailableYears(rs)[i] < AvailableYears(rs)[j]
  {
    var ys := AvailableYears(rs);
    forall i, j | 0 <= i < j < |ys| ensures ys[i] < ys[j] {
      assert ys[i] in RecordYears(rs) && ys[j] in RecordYears(rs);
      Decimal.FourDigits(ys[i]);
      Decimal.FourDigits(ys[j]);
      Decimal.SameLengthOrder(ys[i], ys[j]);
    }
  }

  function GetAvailableYears(): seq<int> {
    AvailableYears(Fixture)
  }

  // ---------------------------------------------------------------------------
  // getAvailableRegions
  // ---------------------------------------------------------------------------

  /** The records' regions, position by position. */
  function Regions(rs: seq<EconomicRecord>): (all: seq<string>)
    ensures |all| == |rs|
    ensures forall i :: 0 <= i < |rs| ==> all[i] == rs[i].region
    ensures forall g :: g in all <==> exists x :: x in rs && x.region == g
  {
    var all := MapSeq(rs, (x: EconomicRecord) => x.region);
    assert forall g :: g in all <==> exists x :: x in rs && x.region == g by {
      forall g | exists x :: x in rs && x.region == g ensures g in all {
        var x :| x in rs && x.region == g;
        var i :| 0 <= i < |rs| && rs[i] == x;
        assert all[i] == g;
      }
    }
    all
  }

  /** `getAvailableRegions()` over `rs`: each region once, in the order in which
      the records first mention it. */
  function AvailableRegions(rs: seq<EconomicRecord>): (regions: seq<string>)
    ensures NoDuplicates(regions)
    ensures forall g :: g in regions <==> g in Regions(rs)
    ensures forall i, j :: 0 <= i < j < |regions| ==>
      FirstIndex(Regions(rs), regions[i]) < FirstIndex(Regions(rs), regions[j])
  {
    DistinctFirstSeenOrder(Regions(rs));
    Distinct(Regions(rs))
  }

  function GetAvailableRegions(): seq<string> {
    AvailableRegions(Fixture)
  }
}

=== FILE: authviews.dfy ===
/** The two request handlers of `Backend/myproject/authapp/views.py` that the
    application routes to: `signup_view`, an ordered chain of checks ending in
    a guarded insert into the user table, and `protected_view`, which reads a
    bearer token from the `Authorization` header. The user table is a set of
    (username, email) pairs; `validate_email` and `verify_jwt` are parameters. */
module AuthViews {
  import opened Wrappers
  import Decimal

  // ---------------------------------------------------------------------------
  // Requests and responses
  // ---------------------------------------------------------------------------

  /** `json.loads(request.body)`: text that is not JSON, a JSON object (its
      string-valued fields), or any other JSON value, on which `data.get`
      raises. */
  datatype RequestBody = Malformed | Object(fields: map<string, string>) | NonObject

  /** A JSON response's payload. `NotAllowed` is the empty body of the 405
      that `@require_GET` sends; `Crash` is Django's response to an exception
      the view does not catch. */
  datatype Payload =
    | Error(error: string)
    | Created(message: string, username: string, email: string)
    | Greeting(message: string)
    | NotAllowed
    | Crash

  datatype Response = Response(status: int, payload: Payload)

  /** A row of the user table, as far as the views look at it. */
  datatype Account = Account(username: string, email: string)

  type UserTable = set<Account>

  // ---------------------------------------------------------------------------
  // signup_view
  // ---------------------------------------------------------------------------

  const InvalidRequest: string := "Invalid request"
  const InvalidJson: string := "Invalid JSON"
  const FieldsRequired: string := "Username, password, and email are required"
  const InvalidEmail: string := "Invalid email address"
  const UsernameTaken: string := "Username already exists"
  const EmailTaken: string := "Email already in use"
  const UserCreated: string := "User created successfully"

  /** `not data.get(name)`: the field is absent or the empty string. */
  predicate Missing(fields: map<string, string>, name: string) {
    name !in fields || fields[name] == ""
  }

  predicate UsernameInUse(table: UserTable, username: string) {
    exists a :: a in table && a.username == username
  }

  predicate EmailInUse(table: UserTable, email: string) {
    exists a :: a in table && a.email == email
  }

  /** The stages of the chain, each reached only when every earlier check passed. */
  predicate FieldsPresent(fields: map<string, string>) {
    !Missing(fields, "username") && !Missing(fields, "password") && !Missing(fields, "email")
  }

  /** Reference predicate: a signup the table accepts. */
  predicate SignupAccepted(verb: string, body: RequestBody, table: UserTable, validEmail: string -> bool) {
    && verb == "POST"
    && body.Object?
    && FieldsPresent(body.fields)
    && validEmail(body.fields["email"])
    && !UsernameInUse(table, body.fields["username"])
    && !EmailInUse(table, body.fields["email"])
  }

  datatype SignupResult = SignupResult(response: Response, table: UserTable)

  function Fail(table: UserTable, message: string): SignupResult {
    SignupResult(Response(400, Error(message)), table)
  }

  /** `signup_view(request)` against the user table `table`. */
  function SignupView(verb: string, body: RequestBody, table: UserTable, validEmail: string -> bool): (r: SignupResult)
    ensures verb != "POST" ==> r == Fail(table, InvalidRequest)
    ensures verb == "POST" && body.Malformed? ==> r == Fail(table, InvalidJson)
    ensures verb == "POST" && body.NonObject? ==> r == SignupResult(Response(500, Crash), table)
    ensures verb == "POST" && body.Object? && !FieldsPresent(body.fields) ==> r == Fail(table, FieldsRequired)
    ensures (verb == "POST" && body.Object? && FieldsPresent(body.fields)
      && !validEmail(body.fields["email"])) ==> r == Fail(table, InvalidEmail)
    ensures (verb == "POST" && body.Object? && FieldsPresent(body.fields) && validEmail(body.fields["email"])
      && UsernameInUse(table, body.fields["username"])) ==> r == Fail(table, UsernameTaken)
    ensures (verb == "POST" && body.Object? && FieldsPresent(body.fields) && validEmail(body.fields["email"])
      && !UsernameInUse(table, body.fields["username"])
      && EmailInUse(table, body.fields["email"])) ==> r == Fail(table, EmailTaken)
    ensures r.response.status == 200 <==> SignupAccepted(verb, body, table, validEmail)
    ensures SignupAccepted(verb, body, table, validEmail) ==>
      var u, e := body.fields["username"], body.fields["email"];
      && r.response.payload == Created(UserCreated, u, e)
      && r.table == table + {Account(u, e)}
      && Account(u, e) !in table
    ensures !SignupAccepted(verb, body, table, validEmail) ==> r.table == table
  {
    if verb != "POST" then Fail(table, InvalidRequest)
    else
      match body
      case Malformed => Fail(table, InvalidJson)
      case NonObject => SignupResult(Response(500, Crash), table)
      case Object(fields) =>
        if !FieldsPresent(fields) then Fail(table, FieldsRequired)
        else
          var username, email := fields["username"], fields["email"];
          if !validEmail(email) then Fail(table, InvalidEmail)
          else if UsernameInUse(table, username) then Fail(table, UsernameTaken)
          else if EmailInUse(table, email) then Fail(table, EmailTaken)
          else SignupResult(Response(200, Created(UserCreated, username, email)), table + {Account(username, email)})
  }

  /** No two accounts share a username, and no two share an email address. */
  ghost predicate UniqueAccounts(table: UserTable) {
    forall a, b :: a in table && b in table && a != b ==> a.username != b.username && a.email != b.email
  }

  /** Signing up keeps usernames and email addresses unique. */
  lemma SignupKeepsAccountsUnique(verb: string, body: RequestBody, table: UserTable, validEmail: string -> bool)
    requires UniqueAccounts(table)
    ensures UniqueAccounts(SignupView(verb, body, table, validEmail).table)
  {
    var r := SignupView(verb, body, table, validEmail);
    if SignupAccepted(verb, body, table, validEmail) {
      var added := Account(body.fields["username"], body.fields["email"]);
      forall a, b | a in r.table && b in r.table && a != b
        ensures a.username != b.username && a.email != b.email
      {
        if a == added {
          assert b in table;
        } else if b == added {
          assert a in table;
        }
      }
    }
  }

  /** Replaying an accepted signup is refused: the username is now taken. */
  lemma SignupReplayRefused(verb: string, body: RequestBody, table: UserTable, validEmail: string -> bool)
    requires SignupAccepted(verb, body, table, validEmail)
    ensures var again := SignupView(verb, body, SignupView(verb, body, table, validEmail).table, validEmail);
      again.response == Response(400, Error(UsernameTaken))
  {
    var first := SignupView(verb, body, table, validEmail);
    assert Account(body.fields["username"], body.fields["email"]) in first.table;
  }

  // ---------------------------------------------------------------------------
  // Splitting on a separator (`str.split(sep)`)
  // ---------------------------------------------------------------------------

  /** `s.split(sep)` with an explicit separator: every occurrence splits, so
      empty pieces are kept and there is always at least one piece. */
  function Split(s: string, sep: char): (parts: seq<string>)
    ensures |parts| >= 1
    ensures forall i :: 0 <= i < |parts| ==> sep !in parts[i]
    decreases |s|
  {
    if |s| == 0 then [""]
    else
      var rest := Split(s[1..], sep);
      if s[0] == sep then [""] + rest
      else [[s[0]] + rest[0]] + rest[1..]
  }

  /** `sep.join(parts)`. */
  function Join(parts: seq<string>, sep: char): string
    requires |parts| >= 1
    decreases |parts|
  {
    if |parts| == 1 then parts[0] else parts[0] + [sep] + Join(parts[1..], sep)
  }

  /** Splitting loses nothing: joining the pieces back gives the original text. */
  lemma {:induction false} JoinSplit(s: string, sep: char)
    ensures Join(Split(s, sep), sep) == s
    decreases |s|
  {
    if |s| > 0 {
      var rest := Split(s[1..], sep);
      JoinSplit(s[1..], sep);
      if s[0] == sep {
        assert Split(s, sep)[1..] == rest;
      } else {
        var parts := Split(s, sep);
        assert parts[1..] == rest[1..];
        if |rest| == 1 {
          assert Join(parts, sep) == [s[0]] + rest[0];
        } else {
          assert Join(rest, sep) == rest[0] + [sep] + Join(rest[1..], sep);
        }
        assert s == [s[0]] + s[1..];
      }
    }
  }

  /** The characters of `s` before its first `sep`: the first piece of the split. */
  function TakeUntil(s: string, sep: char): (t: string)
    ensures t <= s && sep !in t
    ensures |t| < |s| ==> s[|t|] == sep
    decreases |s|
  {
    if |s| == 0 || s[0] == sep then "" else [s[0]] + TakeUntil(s[1..], sep)
  }

  lemma {:induction false} SplitFirst(s: string, sep: char)
    ensures Split(s, sep)[0] == TakeUntil(s, sep)
    decreases |s|
  {
    if |s| > 0 && s[0] != sep {
      SplitFirst(s[1..], sep);
    }
  }

  // ---------------------------------------------------------------------------
  // protected_view
  // ---------------------------------------------------------------------------

  const BearerPrefix: string := "Bearer "
  const HeaderInvalid: string := "Authorization header missing or invalid"
  const TokenInvalid: string := "Invalid or expired token"

  /** A claim value in a decoded token's payload. */
  datatype Claim = ClaimInt(n: int) | ClaimStr(s: string) | ClaimBool(b: bool)

  /** Python's `str()` of an optional claim, as the f-string renders it. */
  function ClaimText(c: Option<Claim>): string {
    match c
    case None => "None"
    case Some(ClaimInt(n)) => Decimal.DecimalString(n)
    case Some(ClaimStr(s)) => s
    case Some(ClaimBool(b)) => if b then "True" else "False"
  }

  function Greet(payload: map<string, Claim>): string {
    "Hello User " + ClaimText(if "id" in payload then Some(payload["id"]) else None) + ", this is a protected route!"
  }

  predicate StartsWith(s: string, prefix: string) {
    |prefix| <= |s| && s[..|prefix|] == prefix
  }

  /** `auth_header.split(' ')[1]`; a header starting with the prefix always has
      a second piece. */
  function BearerToken(header: string): (token: string)
    requires StartsWith(header, BearerPrefix)
    ensures token == TakeUntil(header[|BearerPrefix|..], ' ')
  {
    var rest := header[|BearerPrefix|..];
    assert header == "Bearer" + [' '] + rest;
    SplitAtFirst("Bearer", rest, ' ');
    SplitFirst(rest, ' ');
    Split(header, ' ')[1]
  }

  /** Text up to the first separator becomes the first piece; the rest is split on its own. */
  lemma {:induction false} SplitAtFirst(w: string, rest: string, sep: char)
    requires sep !in w
    ensures Split(w + [sep] + rest, sep) == [w] + Split(rest, sep)
    decreases |w|
  {
    var s := w + [sep] + rest;
    if |w| == 0 {
      assert s[1..] == rest;
    } else {
      assert s[1..] == w[1..] + [sep] + rest;
      SplitAtFirst(w[1..], rest, sep);
      assert [w[0]] + w[1..] == w;
    }
  }

  /** `protected_view(request)`: `verify_jwt` maps a token to its payload, or
      to nothing when the token is invalid or expired. */
  function ProtectedView(verb: string, header: Option<string>, verifyJwt: string -> Option<map<string, Claim>>): (r: Response)
    ensures verb != "GET" ==> r == Response(405, NotAllowed)
    ensures verb == "GET" && !(header.Some? && StartsWith(header.value, BearerPrefix)) ==>
      r == Response(401, Error(HeaderInvalid))
    ensures r.status == 200 <==>
      && verb == "GET" && header.Some? && StartsWith(header.value, BearerPrefix)
      && var payload := verifyJwt(TakeUntil(header.value[7..], ' '));
         payload.Some? && payload.value != map[]
    ensures r.status == 200 ==> r.payload == Greeting(Greet(verifyJwt(TakeUntil(header.value[7..], ' ')).value))
    ensures verb == "GET" && header.Some? && StartsWith(header.value, BearerPrefix) && r.status != 200 ==>
      r == Response(401, Error(TokenInvalid))
  {
    if verb != "GET" then Response(405, NotAllowed)
    else if header.None? || header.value == "" || !StartsWith(header.value, BearerPrefix) then
      Response(401, Error(HeaderInvalid))
    else
      var payload := verifyJwt(BearerToken(header.value));
      if payload.None? || payload.value == map[] then Response(401, Error(TokenInvalid))
      else Response(200, Greeting(Greet(payload.value)))
  }

  /** A token without spaces, sent as `Bearer <token>`, is the one verified:
      the response depends on nothing else. */
  lemma BearerRoundTrip(token: string, verifyJwt: string -> Option<map<string, Claim>>)
    requires ' ' !in token
    ensures var r := ProtectedView("GET", Some(BearerPrefix + token), verifyJwt);
      && (verifyJwt(token).None? || verifyJwt(token).value == map[] ==> r == Response(401, Error(TokenInvalid)))
      && (verifyJwt(token).Some? && verifyJwt(token).value != map[] ==>
            r == Response(200, Greeting(Greet(verifyJwt(token).value))))
  {
    var header := BearerPrefix + token;
    assert header[7..] == token;
    TakeUntilWhole(token, ' ');
  }

  lemma {:induction false} TakeUntilWhole(s: string, sep: char)
    requires sep !in s
    ensures TakeUntil(s, sep) == s
    decreases |s|
  {
    if |s| > 0 {
      TakeUntilWhole(s[1..], sep);
      assert s == [s[0]] + s[1..];
    }
  }
}

=== FILE: decimal.dfy ===
/** Decimal rendering of integers, as Python's `str` writes any integer and
    JavaScript's `Number.prototype.toString` writes a safe integer (one of
    magnitude below 2^53), and the code-unit order JavaScript uses to compare
    strings, which is the order of `Array.prototype.sort` when no comparator
    is given. */
module Decimal {

  /** The character for digit `d`. */
  function DigitChar(d: nat): (c: char)
    requires d < 10
    ensures '0' <= c <= '9'
    ensures DigitValue(c) == d
  {
    (48 + d) as char
  }

  /** The digit a character stands for. */
  function DigitValue(c: char): (d: nat)
    requires '0' <= c <= '9'
    ensures d < 10
  {
    (c as int) - 48
  }

  predicate IsDigits(s: string) {
    forall i :: 0 <= i < |s| ==> '0' <= s[i] <= '9'
  }

  /** The decimal digits of `n`, most significant first, with no leading zero. */
  function NatString(n: nat): (s: string)
    ensures 1 <= |s|
    ensures IsDigits(s)
    ensures n < 10 <==> |s| == 1
    ensures s[0] == '0' ==> n == 0
    decreases n
  {
    if n < 10 then [DigitChar(n)] else NatString(n / 10) + [DigitChar(n % 10)]
  }

  /** The decimal form of an integer: a minus sign before the digits of its magnitude. */
  function DecimalString(n: int): (s: string)
    ensures 1 <= |s|
    ensures n < 0 <==> s[0] == '-'
  {
    if n < 0 then "-" + NatString(-n) else NatString(n)
  }

  /** Reads a digit string back into the number it denotes. */
  function ParseDigits(s: string): (n: nat)
    requires IsDigits(s)
    decreases |s|
  {
    if |s| == 0 then 0 else ParseDigits(s[..|s| - 1]) * 10 + DigitValue(s[|s| - 1])
  }

  /** Reading the rendered digits gives the number back. */
  lemma {:induction false} ParseNatString(n: nat)
    ensures ParseDigits(NatString(n)) == n
    decreases n
  {
    var s := NatString(n);
    if n >= 10 {
      ParseNatString(n / 10);
      assert s[..|s| - 1] == NatString(n / 10);
    }
  }

  lemma NatStringInjective(a: nat, b: nat)
    requires NatString(a) == NatString(b)
    ensures a == b
  {
    ParseNatString(a);
    ParseNatString(b);
  }

  /** Distinct integers have distinct decimal forms. */
  lemma DecimalStringInjective(a: int, b: int)
    requires DecimalString(a) == DecimalString(b)
    ensures a == b
  {
    if a < 0 {
      assert NatString(-a) == DecimalString(a)[1..];
      assert NatString(-b) == DecimalString(b)[1..];
      NatStringInjective(-a, -b);
    } else {
      NatStringInjective(a, b);
    }
  }

  /** JavaScript's `a < b` on strings: a proper prefix is smaller, otherwise the
      first differing code unit decides. */
  predicate LexLess(a: string, b: string)
    decreases |a|
  {
    if |b| == 0 then false
    else if |a| == 0 then true
    else if a[0] != b[0] then a[0] < b[0]
    else LexLess(a[1..], b[1..])
  }

  lemma {:induction false} LexLessIrreflexive(a: string)
    ensures !LexLess(a, a)
    decreases |a|
  {
    if |a| > 0 {
      LexLessIrreflexive(a[1..]);
    }
  }

  lemma {:induction false} LexLessTransitive(a: string, b: string, c: string)
    requires LexLess(a, b) && LexLess(b, c)
    ensures LexLess(a, c)
    decreases |a|
  {
    if |a| > 0 && a[0] == b[0] && b[0] == c[0] {
      LexLessTransitive(a[1..], b[1..], c[1..]);
    }
  }

  /** Any two different strings are ordered one way or the other. */
  lemma {:induction false} LexLessTotal(a: string, b: string)
    requires a != b
    ensures LexLess(a, b) || LexLess(b, a)
    decreases |a|
  {
    if |a| > 0 && |b| > 0 && a[0] == b[0] {
      assert a == [a[0]] + a[1..] && b == [b[0]] + b[1..];
      LexLessTotal(a[1..], b[1..]);
    }
  }

  /** Comparing two equally long strings extended by one character each. */
  lemma {:induction false} LexLessSnoc(s: string, c: char, t: string, d: char)
    requires |s| == |t|
    ensures LexLess(s + [c], t + [d]) <==> LexLess(s, t) || (s == t && c < d)
    decreases |s|
  {
    if |s| > 0 {
      assert (s + [c])[1..] == s[1..] + [c];
      assert (t + [d])[1..] == t[1..] + [d];
      LexLessSnoc(s[1..], c, t[1..], d);
      if s[0] == t[0] && s[1..] == t[1..] {
        assert s == [s[0]] + s[1..] && t == [t[0]] + t[1..];
      }
    }
  }

  /** For numbers written with the same count of digits, string order is
      numeric order. */
  lemma {:induction false} SameLengthOrder(a: nat, b: nat)
    requires |NatString(a)| == |NatString(b)|
    ensures LexLess(NatString(a), NatString(b)) <==> a < b
    decreases a
  {
    if a >= 10 {
      SameLengthOrder(a / 10, b / 10);
      LexLessSnoc(NatString(a / 10), DigitChar(a % 10), NatString(b / 10), DigitChar(b % 10));
      if NatString(a / 10) == NatString(b / 10) {
        NatStringInjective(a / 10, b / 10);
      }
    }
  }

  /** Every year from 1000 to 9999 is written with four digits. */
  lemma FourDigits(n: nat)
    requires 1000 <= n <= 9999
    ensures |NatString(n)| == 4
  {
    assert |NatString(n / 1000)| == 1;
    assert NatString(n / 100) == NatString(n / 1000) + [DigitChar(n / 100 % 10)];
    assert NatString(n / 10) == NatString(n / 100) + [DigitChar(n / 10 % 10)];
    assert NatString(n) == NatString(n / 10) + [DigitChar(n % 10)];
  }
}

=== FILE: fixture_facts.dfy ===
/** What the aggregator yields on the 18-record fixture the dashboard ships
    with: the concrete series the charts are drawn from. */
module FixtureFacts {
  import opened Wrappers
  import opened Sequences
  import opened Aggregator
  import Decimal

  /** The fixture's regions, one per country block. */
  const FixtureRegions: seq<string> := ["North America", "Asia", "Europe"]

  /** The fixture's shape: three blocks of six records, one block per region,
      each block dated 2018 through 2023 in order. */
  predicate SixYearBlocks(rs: seq<EconomicRecord>) {
    |rs| == 18 && forall i :: 0 <= i < 18 ==> rs[i].year == 2018 + i % 6 && rs[i].region == FixtureRegions[i / 6]
  }

  lemma FixtureShape()
    ensures SixYearBlocks(Fixture)
  {
    forall i | 0 <= i < 18 ensures Fixture[i].year == 2018 + i % 6 && Fixture[i].region == FixtureRegions[i / 6] {
      if i < 6 {} else if i < 12 {} else {}
    }
  }

  /** A strictly ascending sequence holding exactly the integers `lo..hi` is `[lo, …, hi]`. */
  lemma {:induction false} AscendingInterval(ys: seq<int>, lo: int, hi: int)
    requires forall i, j :: 0 <= i < j < |ys| ==> ys[i] < ys[j]
    requires forall y :: y in ys <==> lo <= y <= hi
    ensures |ys| == if lo <= hi then hi - lo + 1 else 0
    ensures forall i :: 0 <= i < |ys| ==> ys[i] == lo + i
    decreases |ys|
  {
    if |ys| == 0 {
      assert lo !in ys;
    } else {
      assert lo <= ys[0] <= hi by {
        assert ys[0] in ys;
      }
      assert ys[0] == lo by {
        assert lo in ys;
      }
      var tail := ys[1..];
      forall y | y in tail ensures lo + 1 <= y <= hi {
        var j :| 0 <= j < |tail| && tail[j] == y;
        assert ys[j + 1] == y && ys[0] < ys[j + 1];
        assert y in ys;
      }
      forall y | lo + 1 <= y <= hi ensures y in tail {
        assert y in ys;
        var j :| 0 <= j < |ys| && ys[j] == y;
        assert j != 0;
        assert tail[j - 1] == y;
      }
      AscendingInterval(tail, lo + 1, hi);
    }
  }

  /** Records shaped like the fixture mention exactly the years 2018–2023. */
  lemma BlockYears(rs: seq<EconomicRecord>)
    requires SixYearBlocks(rs)
    ensures RecordYears(rs) == {2018, 2019, 2020, 2021, 2022, 2023}
    ensures forall y :: y in RecordYears(rs) <==> 2018 <= y <= 2023
    ensures forall x :: x in rs ==> 2018 <= x.year <= 2023
  {
    forall y | y in RecordYears(rs) ensures 2018 <= y <= 2023 {
      var x :| x in rs && x.year == y;
      var i :| 0 <= i < |rs| && rs[i] == x;
    }
    forall y | 2018 <= y <= 2023 ensures y in RecordYears(rs) {
      assert rs[y - 2018] in rs;
    }
  }

  /** When the selected records span exactly the years `lo..hi`, the trend has
      one point per year, in order. */
  lemma TrendOverInterval(rs: seq<EconomicRecord>, region: Option<string>, lo: int, hi: int)
    requires lo <= hi
    requires forall y :: y in RecordYears(SelectRegion(rs, region)) <==> lo <= y <= hi
    ensures |GdpTrend(rs, region)| == hi - lo + 1
    ensures forall i :: 0 <= i < |GdpTrend(rs, region)| ==> GdpTrend(rs, region)[i].year == Some(lo + i)
  {
    SeriesOverInterval(GdpTrend(rs, region), lo, hi);
  }

  /** A series of dated points, strictly ascending by year, whose years are
      exactly `lo..hi`, is dated `lo, lo + 1, …, hi`. */
  lemma SeriesOverInterval(r: seq<ChartPoint>, lo: int, hi: int)
    requires lo <= hi
    requires forall i :: 0 <= i < |r| ==> r[i].year.Some?
    requires forall i, j :: 0 <= i < j < |r| ==> r[i].year.value < r[j].year.value
    requires forall y :: y in PointYears(r) <==> lo <= y <= hi
    ensures |r| == hi - lo + 1
    ensures forall i :: 0 <= i < |r| ==> r[i].year == Some(lo + i)
  {
    var ys := seq(|r|, i requires 0 <= i < |r| => r[i].year.value);
    AscendingYears(r, ys);
    AscendingInterval(ys, lo, hi);
  }

  /** The years of a series whose points are all dated, as a sequence of numbers. */
  lemma AscendingYears(r: seq<ChartPoint>, ys: seq<int>)
    requires forall i :: 0 <= i < |r| ==> r[i].year.Some?
    requires forall i, j :: 0 <= i < j < |r| ==> r[i].year.value < r[j].year.value
    requires |ys| == |r| && forall i :: 0 <= i < |r| ==> ys[i] == r[i].year.value
    ensures forall i, j :: 0 <= i < j < |ys| ==> ys[i] < ys[j]
    ensures forall y :: y in ys <==> y in PointYears(r)
  {
    forall y | y in PointYears(r) ensures y in ys {
      var p :| p in r && p.year == Some(y);
      var i :| 0 <= i < |r| && r[i] == p;
      assert ys[i] == y;
    }
  }

  /** Records spanning the years 2018–2023 give a six-point trend when no
      region is chosen, one point per year in order. */
  lemma SixYearTrend(rs: seq<EconomicRecord>)
    requires RecordYears(rs) == {2018, 2019, 2020, 2021, 2022, 2023}
    ensures |GdpTrend(rs, None)| == 6
    ensures forall i :: 0 <= i < 6 ==> GdpTrend(rs, None)[i] == YearPoint(rs, 2018 + i)
  {
    TrendOverInterval(rs, None, 2018, 2023);
  }

  /** With no region, the fixture's GDP trend has one point per year 2018–2023,
      and the 2018 point totals the three countries' 2018 GDP. */
  lemma FixtureGdpTrend()
    ensures |GetGdpTrendData(None)| == 6
    ensures forall i :: 0 <= i < 6 ==> GetGdpTrendData(None)[i].year == Some(2018 + i)
    ensures GetGdpTrendData(None)[0] == ChartPoint("2018", 85.87 + 42.32 + 21.47, Some(2018), None)
  {
    FixtureShape();
    BlockYears(Fixture);
    SixYearTrend(Fixture);
    FixtureGdp2018();
    Name2018();
  }

  lemma {:induction false} SumGdpConcat(a: seq<EconomicRecord>, b: seq<EconomicRecord>, y: int)
    ensures SumGdp(a + b, y) == SumGdp(a, y) + SumGdp(b, y)
    decreases |b|
  {
    if |b| == 0 {
      assert a + b == a;
    } else {
      var n := |b| - 1;
      assert b == b[..n] + [b[n]];
      assert a + b == (a + b[..n]) + [b[n]];
      SumGdpConcat(a, b[..n], y);
      SumGdpSnoc(a + b[..n], b[n], y);
      SumGdpSnoc(b[..n], b[n], y);
    }
  }

  /** A block of six records whose only record dated `y` is its first. */
  lemma FirstOfBlock(rs: seq<EconomicRecord>, k: nat, y: int)
    requires k + 6 <= |rs| && rs[k].year == y
    requires forall i :: k < i < k + 6 ==> rs[i].year != y
    ensures SumGdp(rs[k..k + 6], y) == rs[k].gdp
  {
    var block := rs[k..k + 6];
    assert block == [rs[k]] + block[1..];
    SumGdpConcat([rs[k]], block[1..], y);
    SumGdpSnoc([], rs[k], y);
    assert [] + [rs[k]] == [rs[k]];
    SumGdpAbsent(block[1..], y);
  }

  lemma SumGdpInThree(rs: seq<EconomicRecord>, y: int)
    requires |rs| == 18
    ensures SumGdp(rs, y) == SumGdp(rs[0..6], y) + SumGdp(rs[6..12], y) + SumGdp(rs[12..18], y)
  {
    assert rs == rs[0..6] + rs[6..12] + rs[12..18];
    SumGdpConcat(rs[0..6] + rs[6..12], rs[12..18], y);
    SumGdpConcat(rs[0..6], rs[6..12], y);
  }

  /** In records shaped like the fixture, the 2018 total is the three blocks'
      first records' GDP. */
  lemma BlocksGdp2018(rs: seq<EconomicRecord>)
    requires SixYearBlocks(rs)
    ensures SumGdp(rs, 2018) == rs[0].gdp + rs[6].gdp + rs[12].gdp
  {
    SumGdpInThree(rs, 2018);
    FirstOfBlock(rs, 0, 2018);
    FirstOfBlock(rs, 6, 2018);
    FirstOfBlock(rs, 12, 2018);
  }

  lemma FixtureGdp2018()
    ensures SumGdp(Fixture, 2018) == 85.87 + 42.32 + 21.47
  {
    FixtureShape();
    BlocksGdp2018(Fixture);
    assert Fixture[0].gdp == 85.87 && Fixture[6].gdp == 42.32 && Fixture[12].gdp == 21.47;
  }

  lemma Name2018()
    ensures Decimal.DecimalString(2018) == "2018"
  {
    assert Decimal.NatString(2) == "2";
    assert Decimal.NatString(20) == "20";
    assert Decimal.NatString(201) == "201";
  }

  /** A block of six records whose only record dated `y` is its last. */
  lemma LastOfBlock(rs: seq<EconomicRecord>, k: nat, y: int)
    requires k + 6 <= |rs| && rs[k + 5].year == y
    requires forall i :: k <= i < k + 5 ==> rs[i].year != y
    ensures Filter(rs[k..k + 6], AtYear(y)) == [rs[k + 5]]
  {
    var block := rs[k..k + 6];
    assert block == block[..5] + [rs[k + 5]];
    FilterNone(block[..5], AtYear(y));
    FilterSnoc(block[..5], rs[k + 5], AtYear(y));
  }

  /** Three countries' six-year blocks, each dated `y` only in its last record. */
  predicate LastOfEachBlock(rs: seq<EconomicRecord>, y: int) {
    |rs| == 18 && forall i :: 0 <= i < 18 ==> (rs[i].year == y <==> i == 5 || i == 11 || i == 17)
  }

  lemma LastOfThreeBlocks(rs: seq<EconomicRecord>, y: int)
    requires LastOfEachBlock(rs, y)
    ensures Filter(rs[0..6], AtYear(y)) == [rs[5]]
    ensures Filter(rs[6..12], AtYear(y)) == [rs[11]]
    ensures Filter(rs[12..18], AtYear(y)) == [rs[17]]
  {
    LastOfBlock(rs, 0, y);
    LastOfBlock(rs, 6, y);
    LastOfBlock(rs, 12, y);
  }

  lemma FilterConcat3<T(!new)>(a: seq<T>, b: seq<T>, c: seq<T>, p: T -> bool)
    ensures Filter(a + b + c, p) == Filter(a, p) + Filter(b, p) + Filter(c, p)
  {
    FilterConcat(a + b, c, p);
    FilterConcat(a, b, p);
  }

  /** Kept apart so that the solver meets this sequence identity without the
      filter terms around it. */
  lemma ThreeSingletons<T>(a: T, b: T, c: T)
    ensures [a] + [b] + [c] == [a, b, c]
  {
  }

  lemma FilterInThree(rs: seq<EconomicRecord>, y: int)
    requires |rs| == 18
    ensures Filter(rs, AtYear(y))
      == Filter(rs[0..6], AtYear(y)) + Filter(rs[6..12], AtYear(y)) + Filter(rs[12..18], AtYear(y))
  {
    assert rs == rs[0..6] + rs[6..12] + rs[12..18];
    FilterConcat3(rs[0..6], rs[6..12], rs[12..18], AtYear(y));
  }

  lemma FilterThreeBlocks(rs: seq<EconomicRecord>, y: int)
    requires |rs| == 18
    requires Filter(rs[0..6], AtYear(y)) == [rs[5]]
    requires Filter(rs[6..12], AtYear(y)) == [rs[11]]
    requires Filter(rs[12..18], AtYear(y)) == [rs[17]]
    ensures Filter(rs, AtYear(y)) == [rs[5], rs[11], rs[17]]
  {
    FilterInThree(rs, y);
    ThreeSingletons(rs[5], rs[11], rs[17]);
  }

  /** In records shaped like the fixture, the 2023 records are each block's last. */
  lemma BlocksEndIn2023(rs: seq<EconomicRecord>)
    requires SixYearBlocks(rs)
    ensures Filter(rs, AtYear(2023)) == [rs[5], rs[11], rs[17]]
  {
    assert LastOfEachBlock(rs, 2023);
    LastOfThreeBlocks(rs, 2023);
    FilterThreeBlocks(rs, 2023);
  }

  /** `map` over a three-element literal, stated once for every caller. */
  lemma MapThree<T, U>(a: T, b: T, c: T, f: T -> U)
    ensures MapSeq([a, b, c], f) == [f(a), f(b), f(c)]
  {
  }

  /** Over records shaped like the fixture, the latest year is 2023, the year
      the inflation series reports, and the unemployment series is the three
      blocks' 2023 figures. */
  lemma BlocksUnemployment(rs: seq<EconomicRecord>)
    requires SixYearBlocks(rs)
    ensures MaxYear(rs) == 2023 == InflationYear
    ensures UnemploymentSnapshot(rs, None, None)
      == [UnemploymentPoint(rs[5]), UnemploymentPoint(rs[11]), UnemploymentPoint(rs[17])]
    ensures UnemploymentSnapshot(rs, Some(2018), Some(2023)) == UnemploymentSnapshot(rs, None, None)
  {
    BlockYears(rs);
    UnemploymentWindowCoversAll(rs, 2018, 2023);
    assert rs[5] in rs;
    BlocksEndIn2023(rs);
    MapThree(rs[5], rs[11], rs[17], UnemploymentPoint);
  }

  lemma FixtureLatestUS()
    ensures Fixture[5] == EconomicRecord(2023, 93.47, 335.8, 4.12, 3.7, "North America", "United States")
  {
  }

  /** Without a window, and with the window 2018–2023 that spans the whole
      fixture, the unemployment series is the three countries' 2023 figures. */
  lemma FixtureUnemployment()
    ensures GetUnemploymentData(None, None)
      == [UnemploymentPoint(Fixture[5]), UnemploymentPoint(Fixture[11]), UnemploymentPoint(Fixture[17])]
    ensures GetUnemploymentData(Some(2018), Some(2023)) == GetUnemploymentData(None, None)
    ensures GetUnemploymentData(None, None)[0] == ChartPoint("United States", 3.7, None, Some("North America"))
  {
    FixtureShape();
    BlocksUnemployment(Fixture);
    FixtureLatestUS();
  }

  lemma BlocksInflation(rs: seq<EconomicRecord>)
    requires SixYearBlocks(rs)
    ensures InflationSnapshot(rs) == [InflationPoint(rs[5]), InflationPoint(rs[11]), InflationPoint(rs[17])]
  {
    BlocksEndIn2023(rs);
    MapThree(rs[5], rs[11], rs[17], InflationPoint);
  }

  /** The inflation series is the three countries' 2023 inflation, in record order. */
  lemma FixtureInflation()
    ensures GetInflationData()
      == [InflationPoint(Fixture[5]), InflationPoint(Fixture[11]), InflationPoint(Fixture[17])]
    ensures GetInflationData()[2] == ChartPoint("United Kingdom", 7.31, None, Some("Europe"))
  {
    FixtureShape();
    BlocksInflation(Fixture);
  }

  /** The six consecutive years as a literal, kept apart from the proofs that
      derive its premise. */
  lemma SixAscending(ys: seq<int>)
    requires |ys| == 6 && forall i :: 0 <= i < 6 ==> ys[i] == 2018 + i
    ensures ys == [2018, 2019, 2020, 2021, 2022, 2023]
  {
  }

  /** The only strictly ascending listing of the years 2018–2023. */
  lemma YearsInterval(ys: seq<int>)
    requires forall i, j :: 0 <= i < j < |ys| ==> ys[i] < ys[j]
    requires forall y :: y in ys <==> 2018 <= y <= 2023
    ensures ys == [2018, 2019, 2020, 2021, 2022, 2023]
  {
    AscendingInterval(ys, 2018, 2023);
    SixAscending(ys);
  }

  lemma BlocksAvailableYears(rs: seq<EconomicRecord>)
    requires SixYearBlocks(rs)
    ensures AvailableYears(rs) == [2018, 2019, 2020, 2021, 2022, 2023]
  {
    BlockYears(rs);
    AvailableYearsNumeric(rs);
    YearsInterval(AvailableYears(rs));
  }

  /** The fixture's years are listed once each, 2018 through 2023. */
  lemma FixtureAvailableYears()
    ensures GetAvailableYears() == [2018, 2019, 2020, 2021, 2022, 2023]
  {
    FixtureShape();
    BlocksAvailableYears(Fixture);
  }

  /** A duplicate-free listing of the elements of `all`, ordered by first
      occurrence in `all`, when `all` holds exactly `a`, `b` and `c`, first
      seen in that order, is `[a, b, c]`. */
  lemma FirstSeenThree<T>(listing: seq<T>, all: seq<T>, a: T, b: T, c: T)
    requires NoDuplicates(listing)
    requires forall g :: g in listing <==> g in all
    requires forall g :: g in all <==> g == a || g == b || g == c
    requires forall i, j :: 0 <= i < j < |listing| ==> FirstIndex(all, listing[i]) < FirstIndex(all, listing[j])
    requires a in all && b in all && c in all
    requires FirstIndex(all, a) < FirstIndex(all, b) < FirstIndex(all, c)
    ensures listing == [a, b, c]
  {
    NoDuplicatesCount(listing);
    assert (set g | g in listing) == {a, b, c};
    assert |listing| == 3;
  }

  /** The regions of records shaped like the fixture, first seen at the start
      of each block. */
  lemma BlockRegions(rs: seq<EconomicRecord>)
    requires SixYearBlocks(rs)
    ensures forall g :: g in Regions(rs) <==> g == FixtureRegions[0] || g == FixtureRegions[1] || g == FixtureRegions[2]
    ensures FirstIndex(Regions(rs), FixtureRegions[0]) == 0
    ensures FirstIndex(Regions(rs), FixtureRegions[1]) == 6
    ensures FirstIndex(Regions(rs), FixtureRegions[2]) == 12
  {
    var all := Regions(rs);
    var na, asia, europe := FixtureRegions[0], FixtureRegions[1], FixtureRegions[2];
    assert all[0] == na && all[6] == asia && all[12] == europe;
    assert forall i :: 0 <= i < 6 ==> all[i] == na;
    assert forall i :: 6 <= i < 12 ==> all[i] == asia;
    assert forall g :: g in all ==> g == na || g == asia || g == europe by {
      forall g | g in all ensures g == na || g == asia || g == europe {
        var i :| 0 <= i < |all| && all[i] == g;
      }
    }
    FirstIndexUnique(all, na, 0);
    FirstIndexUnique(all, asia, 6);
    FirstIndexUnique(all, europe, 12);
  }

  lemma BlocksAvailableRegions(rs: seq<EconomicRecord>)
    requires SixYearBlocks(rs)
    ensures AvailableRegions(rs) == FixtureRegions
  {
    BlockRegions(rs);
    FirstSeenThree(AvailableRegions(rs), Regions(rs), FixtureRegions[0], FixtureRegions[1], FixtureRegions[2]);
  }

  /** The fixture's regions are listed once each, in the order of the countries. */
  lemma FixtureAvailableRegions()
    ensures GetAvailableRegions() == ["North America", "Asia", "Europe"]
  {
    FixtureShape();
    BlocksAvailableRegions(Fixture);
  }
}

=== FILE: sequences.dfy ===
/** The array operations the aggregator is built from: `filter`, `map`, and
    the first-seen de-duplication of `[...new Set(xs)]`. */
module Sequences {

  /** The elements of `s` that satisfy `p`, in their original order (`Array.prototype.filter`). */
  function Filter<T(!new)>(s: seq<T>, p: T -> bool): (r: seq<T>)
    ensures |r| <= |s|
    ensures forall x {:trigger multiset(r)[x]} ::
      multiset(r)[x] == if p(x) then multiset(s)[x] else 0
    ensures forall x :: x in r <==> x in s && p(x)
    decreases |s|
  {
    if |s| == 0 then []
    else
      var n := |s| - 1;
      assert s == s[..n] + [s[n]];
      var r := Filter(s[..n], p) + (if p(s[n]) then [s[n]] else []);
      assert forall x :: x in r <==> multiset(r)[x] > 0;
      r
  }

  /** One step of the filter: the verdict on the next element is appended. */
  lemma FilterSnoc<T(!new)>(s: seq<T>, x: T, p: T -> bool)
    ensures Filter(s + [x], p) == Filter(s, p) + (if p(x) then [x] else [])
  {
    assert (s + [x])[..|s|] == s;
  }

  /** A filter every element passes keeps the whole sequence. */
  lemma {:induction false} FilterAll<T(!new)>(s: seq<T>, p: T -> bool)
    requires forall x :: x in s ==> p(x)
    ensures Filter(s, p) == s
    decreases |s|
  {
    if |s| > 0 {
      var n := |s| - 1;
      assert s == s[..n] + [s[n]];
      FilterAll(s[..n], p);
      FilterSnoc(s[..n], s[n], p);
    }
  }

  /** A filter no element passes yields nothing. */
  lemma {:induction false} FilterNone<T(!new)>(s: seq<T>, p: T -> bool)
    requires forall x :: x in s ==> !p(x)
    ensures Filter(s, p) == []
    decreases |s|
  {
    if |s| > 0 {
      var n := |s| - 1;
      assert s == s[..n] + [s[n]];
      FilterNone(s[..n], p);
      FilterSnoc(s[..n], s[n], p);
    }
  }

  /** Filtering distributes over concatenation, so it keeps the relative order
      of the elements it retains. */
  lemma {:induction false} FilterConcat<T(!new)>(s: seq<T>, t: seq<T>, p: T -> bool)
    ensures Filter(s + t, p) == Filter(s, p) + Filter(t, p)
    decreases |t|
  {
    if |t| == 0 {
      assert s + t == s;
    } else {
      var n := |t| - 1;
      assert t == t[..n] + [t[n]];
      assert s + t == (s + t[..n]) + [t[n]];
      FilterConcat(s, t[..n], p);
      FilterSnoc(s + t[..n], t[n], p);
      FilterSnoc(t[..n], t[n], p);
    }
  }

  /** Filters by predicates that agree on every element of `s` are the same filter. */
  lemma {:induction false} FilterAgree<T(!new)>(s: seq<T>, p: T -> bool, q: T -> bool)
    requires forall x :: x in s ==> p(x) == q(x)
    ensures Filter(s, p) == Filter(s, q)
    decreases |s|
  {
    if |s| > 0 {
      var n := |s| - 1;
      assert s == s[..n] + [s[n]];
      FilterAgree(s[..n], p, q);
      FilterSnoc(s[..n], s[n], p);
      FilterSnoc(s[..n], s[n], q);
    }
  }

  /** `f` applied to every element, position by position (`Array.prototype.map`). */
  function MapSeq<T, U>(s: seq<T>, f: T -> U): (r: seq<U>)
    ensures |r| == |s|
    ensures forall i :: 0 <= i < |s| ==> r[i] == f(s[i])
  {
    seq(|s|, i requires 0 <= i < |s| => f(s[i]))
  }

  /** Mapping distributes over concatenation. */
  lemma MapSeqConcat<T, U>(s: seq<T>, t: seq<T>, f: T -> U)
    ensures MapSeq(s + t, f) == MapSeq(s, f) + MapSeq(t, f)
  {
  }

  /** The values `MapSeq` produces are exactly the images of the elements. */
  lemma MapSeqMembers<T, U>(s: seq<T>, f: T -> U)
    ensures forall x :: x in s ==> f(x) in MapSeq(s, f)
    ensures forall y :: y in MapSeq(s, f) ==> exists x :: x in s && y == f(x)
  {
    var r := MapSeq(s, f);
    forall x | x in s ensures f(x) in r {
      var i :| 0 <= i < |s| && s[i] == x;
      assert r[i] == f(x);
    }
    forall y | y in r ensures exists x :: x in s && y == f(x) {
      var i :| 0 <= i < |r| && r[i] == y;
      assert s[i] in s;
    }
  }

  predicate NoDuplicates<T(==)>(s: seq<T>) {
    forall i, j :: 0 <= i < j < |s| ==> s[i] != s[j]
  }

  /** A duplicate-free sequence is as long as the set of its elements is large. */
  lemma {:induction false} NoDuplicatesCount<T>(s: seq<T>)
    requires NoDuplicates(s)
    ensures |set x | x in s| == |s|
    decreases |s|
  {
    if |s| > 0 {
      var n := |s| - 1;
      var pre := s[..n];
      assert s == pre + [s[n]];
      NoDuplicatesCount(pre);
      assert (set x | x in s) == (set x | x in pre) + {s[n]};
      assert s[n] !in (set x | x in pre);
    }
  }

  /** The position of the first occurrence of `x` in `s`. */
  function FirstIndex<T(==)>(s: seq<T>, x: T): (k: nat)
    requires x in s
    ensures k < |s| && s[k] == x && x !in s[..k]
    decreases |s|
  {
    if s[0] == x then 0
    else
      var k := 1 + FirstIndex(s[1..], x);
      assert s[..k] == [s[0]] + s[1..][..k - 1];
      k
  }

  /** The first occurrence is the only position holding `x` with no earlier `x`. */
  lemma FirstIndexUnique<T>(s: seq<T>, x: T, k: nat)
    requires k < |s| && s[k] == x && x !in s[..k]
    ensures FirstIndex(s, x) == k
  {
  }

  /** `[...new Set(s)]`: each distinct element once, in order of first occurrence. */
  function Distinct<T(==,!new)>(s: seq<T>): (r: seq<T>)
    ensures NoDuplicates(r)
    ensures forall x :: x in r <==> x in s
    decreases |s|
  {
    if |s| == 0 then []
    else
      var d := Distinct(s[..|s| - 1]);
      assert forall x :: x in s <==> x in s[..|s| - 1] || x == s[|s| - 1] by {
        assert s == s[..|s| - 1] + [s[|s| - 1]];
      }
      if s[|s| - 1] in d then d else d + [s[|s| - 1]]
  }

  /** `Distinct` lists the elements in the order in which they first occur in `s`. */
  lemma {:induction false} DistinctFirstSeenOrder<T(!new)>(s: seq<T>)
    ensures forall i, j :: 0 <= i < j < |Distinct(s)| ==>
      FirstIndex(s, Distinct(s)[i]) < FirstIndex(s, Distinct(s)[j])
    decreases |s|
  {
    if |s| > 0 {
      var n := |s| - 1;
      var pre := s[..n];
      var d := Distinct(pre);
      DistinctFirstSeenOrder(pre);
      forall x | x in pre
        ensures FirstIndex(s, x) == FirstIndex(pre, x)
      {
        var k := FirstIndex(pre, x);
        assert s[..k] == pre[..k];
        FirstIndexUnique(s, x, k);
      }
      if s[n] !in d {
        assert s[..n] == pre;
        FirstIndexUnique(s, s[n], n);
      }
    }
  }

  /** `less` is a strict weak order: asymmetric, and "not below" is transitive.
      This is what a consistent `Array.prototype.sort` comparator provides. */
  ghost predicate StrictWeakOrder<T(!new)>(less: (T, T) -> bool) {
    && (forall a, b :: less(a, b) ==> !less(b, a))
    && (forall a, b, c :: !less(b, a) && !less(c, b) ==> !less(c, a))
  }

  /** No element sorts below an earlier one. */
  predicate SortedBy<T>(s: seq<T>, less: (T, T) -> bool) {
    forall i, j :: 0 <= i < j < |s| ==> !less(s[j], s[i])
  }

  /** Places `y` before the first element that does not sort below it, so that
      among equals the earlier element stays first (a stable insertion). */
  function InsertBy<T>(y: T, s: seq<T>, less: (T, T) -> bool): (r: seq<T>)
    ensures multiset(r) == multiset(s) + multiset{y}
    decreases |s|
  {
    if |s| == 0 then [y]
    else if less(s[0], y) then
      assert s == [s[0]] + s[1..];
      [s[0]] + InsertBy(y, s[1..], less)
    else [y] + s
  }

  lemma InsertByMembers<T>(y: T, s: seq<T>, less: (T, T) -> bool)
    ensures forall z :: z in InsertBy(y, s, less) <==> z == y || z in s
  {
    var r := InsertBy(y, s, less);
    assert forall z :: z in r <==> multiset(r)[z] > 0;
    assert forall z :: z in s <==> multiset(s)[z] > 0;
  }

  lemma {:induction false} InsertBySorted<T(!new)>(y: T, s: seq<T>, less: (T, T) -> bool)
    requires StrictWeakOrder(less)
    requires SortedBy(s, less)
    ensures SortedBy(InsertBy(y, s, less), less)
    decreases |s|
  {
    var r := InsertBy(y, s, less);
    if |s| > 0 {
      if less(s[0], y) {
        var rest := InsertBy(y, s[1..], less);
        assert r == [s[0]] + rest;
        InsertBySorted(y, s[1..], less);
        InsertByMembers(y, s[1..], less);
        forall j | 0 <= j < |rest| ensures !less(rest[j], s[0]) {
          assert rest[j] in rest;
          if rest[j] != y {
            var k :| 0 <= k < |s[1..]| && s[1..][k] == rest[j];
            assert s[k + 1] == rest[j];
          }
        }
      } else {
        assert r == [y] + s;
        forall j | 0 < j < |s| ensures !less(s[j], y) {
          assert !less(s[j], s[0]);
        }
      }
    }
  }

  lemma {:induction false} InsertByDistinct<T>(y: T, s: seq<T>, less: (T, T) -> bool)
    requires NoDuplicates(s) && y !in s
    ensures NoDuplicates(InsertBy(y, s, less))
    decreases |s|
  {
    var r := InsertBy(y, s, less);
    if |s| > 0 && less(s[0], y) {
      var rest := InsertBy(y, s[1..], less);
      assert r == [s[0]] + rest;
      InsertByDistinct(y, s[1..], less);
      InsertByMembers(y, s[1..], less);
      assert s[0] !in s[1..];
    } else if |s| > 0 {
      assert r == [y] + s;
    }
  }

  /** A stable insertion sort. For a strict weak order it yields the unique
      stable ordering, the one `Array.prototype.sort` is required to produce. */
  function SortBy<T>(s: seq<T>, less: (T, T) -> bool): (r: seq<T>)
    ensures multiset(r) == multiset(s)
    decreases |s|
  {
    if |s| == 0 then []
    else
      assert s == [s[0]] + s[1..];
      InsertBy(s[0], SortBy(s[1..], less), less)
  }

  /** The sorted sequence is ordered, holds the same elements, and stays
      duplicate-free when the input was. */
  lemma {:induction false} SortByOrders<T(!new)>(s: seq<T>, less: (T, T) -> bool)
    requires StrictWeakOrder(less)
    ensures SortedBy(SortBy(s, less), less)
    ensures forall z :: z in SortBy(s, less) <==> z in s
    ensures NoDuplicates(s) ==> NoDuplicates(SortBy(s, less))
    decreases |s|
  {
    var r := SortBy(s, less);
    assert forall z :: z in r <==> multiset(r)[z] > 0;
    assert forall z :: z in s <==> multiset(s)[z] > 0;
    if |s| > 0 {
      var rest := SortBy(s[1..], less);
      SortByOrders(s[1..], less);
      InsertBySorted(s[0], rest, less);
      if NoDuplicates(s) {
        assert s[0] !in s[1..];
        InsertByDistinct(s[0], rest, less);
      }
    }
  }
}

=== FILE: session.dfy ===
/** The client-side session of `src/contexts/AuthContext.tsx`: one `user`
    slot, an `isLoading` flag and the browser's key-value store, moved by four
    transitions — restore on mount, login, signup and logout. The network is
    reduced to the outcome a request settles with, so each transition is a
    pure function of the state and that outcome. */
module Session {
  import opened Wrappers
  import Decimal

  // ---------------------------------------------------------------------------
  // JavaScript values
  // ---------------------------------------------------------------------------

  /** The primitive values a JSON response field can hold, as JavaScript sees
      them once parsed; an absent field reads as `Undefined`. */
  datatype JsValue = Undefined | Null | Bool(b: bool) | Num(n: int) | Str(s: string)

  /** JavaScript truthiness: `undefined`, `null`, `false`, `0` and `""` are falsy. */
  predicate Truthy(v: JsValue) {
    match v
    case Undefined => false
    case Null => false
    case Bool(b) => b
    case Num(n) => n != 0
    case Str(s) => s != ""
  }

  /** `a || b`: the left operand when it is truthy, the right one otherwise. */
  function Or(a: JsValue, b: JsValue): JsValue {
    if Truthy(a) then a else b
  }

  /** `String(v)`, the conversion `localStorage.setItem` applies to its value. */
  function StorageText(v: JsValue): (t: string)
    ensures Truthy(v) ==> t != ""
    ensures v.Str? ==> t == v.s
  {
    match v
    case Undefined => "undefined"
    case Null => "null"
    case Bool(b) => if b then "true" else "false"
    case Num(n) => Decimal.DecimalString(n)
    case Str(s) => s
  }

  // ---------------------------------------------------------------------------
  // State
  // ---------------------------------------------------------------------------

  /** The `User` object the provider holds; the fields keep whatever JSON value
      the server sent, or the fallback `login` substitutes. */
  datatype User = User(id: JsValue, username: JsValue, email: JsValue, token: JsValue)

  /** A parsed JSON document: `null`, an object with its fields, or any other
      value (number, string, boolean, array) with its truthiness; the
      properties of such a value read as `undefined`. */
  datatype JsonDoc = JsonNull | JsonObject(fields: map<string, JsValue>) | JsonOther(truthy: bool)

  /** JavaScript truthiness of a parsed value: objects are truthy, `null` is not. */
  predicate DocTruthy(doc: JsonDoc) {
    match doc
    case JsonNull => false
    case JsonObject(_) => true
    case JsonOther(t) => t
  }

  /** `data.name` for a parsed, non-null document. */
  function Field(doc: JsonDoc, name: string): JsValue
    requires !doc.JsonNull?
  {
    if doc.JsonObject? && name in doc.fields then doc.fields[name] else Undefined
  }

  /** A stored string, as `JSON.parse` sees it: text it accepts, held as the
      value it parses to (such text is never empty), or text it rejects. */
  datatype Entry = Json(doc: JsonDoc) | Text(text: string)

  /** `localStorage`: keys to stored strings. */
  type Storage = map<string, Entry>

  const UserKey: string := "dashboard_user"
  const TokenKey: string := "dashboard_token"

  /** The provider's state: `user`, `isLoading`, and the store it persists to. */
  datatype State = State(user: Option<User>, isLoading: bool, storage: Storage)

  /** The state on mount, before the restore effect has run: no user, loading. */
  function Initial(storage: Storage): State {
    State(None, true, storage)
  }

  /** `JSON.stringify(user)`: an object with the four fields, where a field
      holding `undefined` is omitted. */
  function UserObject(u: User): JsonDoc {
    var all := map["id" := u.id, "username" := u.username, "email" := u.email, "token" := u.token];
    JsonObject(map k | k in all && all[k] != Undefined :: all[k])
  }

  /** The `User` a parsed non-null value stands for: whatever its four fields read. */
  function UserOf(doc: JsonDoc): User
    requires !doc.JsonNull?
  {
    User(Field(doc, "id"), Field(doc, "username"), Field(doc, "email"), Field(doc, "token"))
  }

  /** Serialising a user and parsing it back gives the same user: an omitted
      `undefined` field reads back as `undefined`. */
  lemma UserRoundTrip(u: User)
    ensures DocTruthy(UserObject(u))
    ensures UserOf(UserObject(u)) == u
  {
  }

  // ---------------------------------------------------------------------------
  // Restore (the mount effect)
  // ---------------------------------------------------------------------------

  /** How the mount effect ends: it sets the state, or `JSON.parse` throws on
      stored text that is not JSON and the effect stops before `isLoading` is
      cleared. */
  datatype RestoreOutcome = Restored(state: State) | ParseFailed

  /** The mount effect, run once on the initial state: read `dashboard_user`;
      when the text is truthy, parse it and make the value the user; then
      clear `isLoading`. A falsy parsed value (`null`, `0`, `false`, `""`)
      leaves no user. The store is only read. Stored text that `JSON.parse`
      accepts must be given as `Json`: a `Text` entry stands for text it rejects. */
  function Restore(storage: Storage): (r: RestoreOutcome)
    ensures r.ParseFailed? <==> UserKey in storage && storage[UserKey].Text? && storage[UserKey].text != ""
    ensures r.Restored? ==> !r.state.isLoading && r.state.storage == storage
    ensures r.Restored? ==>
      (r.state.user.Some? <==> UserKey in storage && storage[UserKey].Json? && DocTruthy(storage[UserKey].doc))
    ensures r.Restored? && r.state.user.Some? ==> r.state.user.value == UserOf(storage[UserKey].doc)
  {
    var s := Initial(storage);
    if UserKey !in storage then Restored(s.(isLoading := false))
    else
      match storage[UserKey]
      case Text(text) => if text == "" then Restored(s.(isLoading := false)) else ParseFailed
      case Json(doc) =>
        Restored(s.(user := if DocTruthy(doc) then Some(UserOf(doc)) else None, isLoading := false))
  }

  // ---------------------------------------------------------------------------
  // The network, abstractly
  // ---------------------------------------------------------------------------

  /** What `await res.json()` yields: a document, or a parse error it throws. */
  datatype Body = Parsed(doc: JsonDoc) | Unparsable

  /** How a `fetch` settles: a response with its status and body, a network
      failure (`TypeError`), or the ten-second abort (`AbortError`). */
  datatype FetchOutcome = Response(status: int, body: Body) | NetworkError | Aborted

  /** `res.ok`: the status is in the 2xx range. */
  predicate StatusOk(status: int) {
    200 <= status <= 299
  }

  // ---------------------------------------------------------------------------
  // Login
  // ---------------------------------------------------------------------------

  /** The `loggedInUser` built from a successful response: each field the
      server sent if it is truthy, else `''`, and for the name the submitted
      username. */
  function LoggedInUser(doc: JsonDoc, username: string): User
    requires !doc.JsonNull?
  {
    User(
      Or(Field(doc, "id"), Str("")),
      Or(Field(doc, "username"), Str(username)),
      Or(Field(doc, "email"), Str("")),
      Or(Field(doc, "token"), Str("")))
  }

  /** The store after a successful login: the user record always, the token
      only when it is truthy. The token is kept as its text, which nothing parses. */
  function PersistLogin(storage: Storage, u: User): Storage {
    var withUser := storage[UserKey := Json(UserObject(u))];
    if Truthy(u.token) then withUser[TokenKey := Text(StorageText(u.token))] else withUser
  }

  /** Reference predicate: the outcomes on which `login` resolves `true` — a
      2xx response whose body parses to something other than `null` (reading
      `data.id` off `null` throws). */
  predicate LoginSucceeds(outcome: FetchOutcome) {
    && outcome.Response?
    && StatusOk(outcome.status)
    && outcome.body.Parsed?
    && !outcome.body.doc.JsonNull?
  }

  datatype LoginResult = LoginResult(state: State, ok: bool)

  /** `login(username, password)` settling with `outcome`. The password only
      travels in the request, so it does not appear here. */
  function Login(s: State, username: string, outcome: FetchOutcome): (r: LoginResult)
    ensures !r.state.isLoading
    ensures r.ok <==> LoginSucceeds(outcome)
    ensures !r.ok ==> r.state.user == s.user && r.state.storage == s.storage
    ensures r.ok ==> r.state.user.Some?
    ensures r.ok ==> (UserKey in r.state.storage && r.state.storage[UserKey].Json?
      && DocTruthy(r.state.storage[UserKey].doc) && UserOf(r.state.storage[UserKey].doc) == r.state.user.value)
  {
    match outcome
    case NetworkError => LoginResult(s.(isLoading := false), false)
    case Aborted => LoginResult(s.(isLoading := false), false)
    case Response(status, body) =>
      if body.Unparsable? || !StatusOk(status) || body.doc.JsonNull? then
        LoginResult(s.(isLoading := false), false)
      else
        var u := LoggedInUser(body.doc, username);
        UserRoundTrip(u);
        LoginResult(State(Some(u), false, PersistLogin(s.storage, u)), true)
  }

  /** The fields of the user a successful login sets: each is the server's
      value when truthy and the fallback otherwise. */
  lemma LoginFallbacks(s: State, username: string, outcome: FetchOutcome)
    requires LoginSucceeds(outcome)
    ensures var u := Login(s, username, outcome).state.user.value;
      var doc := outcome.body.doc;
      && (Truthy(Field(doc, "id")) ==> u.id == Field(doc, "id"))
      && (!Truthy(Field(doc, "id")) ==> u.id == Str(""))
      && (Truthy(Field(doc, "username")) ==> u.username == Field(doc, "username"))
      && (!Truthy(Field(doc, "username")) ==> u.username == Str(username))
      && (Truthy(Field(doc, "email")) ==> u.email == Field(doc, "email"))
      && (!Truthy(Field(doc, "email")) ==> u.email == Str(""))
      && (Truthy(Field(doc, "token")) ==> u.token == Field(doc, "token"))
      && (!Truthy(Field(doc, "token")) ==> u.token == Str(""))
  {
  }

  /** A successful login writes `dashboard_token` exactly when the token is
      truthy, as non-empty text; otherwise the previous entry, or its absence,
      stays. No key other than the two is touched. */
  lemma LoginTokenWrite(s: State, username: string, outcome: FetchOutcome)
    requires LoginSucceeds(outcome)
    ensures var r := Login(s, username, outcome);
      var token := r.state.user.value.token;
      && (Truthy(token) ==> r.state.storage[TokenKey] == Text(StorageText(token)) && StorageText(token) != "")
      && (!Truthy(token) ==> (TokenKey in r.state.storage <==> TokenKey in s.storage))
      && (!Truthy(token) && TokenKey in s.storage ==> r.state.storage[TokenKey] == s.storage[TokenKey])
      && (forall k :: k != UserKey && k != TokenKey ==>
            (k in r.state.storage <==> k in s.storage) &&
            (k in s.storage ==> r.state.storage[k] == s.storage[k]))
  {
  }

  /** A session a successful login persisted is the one the next mount restores. */
  lemma LoginThenRestore(s: State, username: string, outcome: FetchOutcome)
    requires Login(s, username, outcome).ok
    ensures var r := Restore(Login(s, username, outcome).state.storage);
      r.Restored? && r.state.user == Login(s, username, outcome).state.user
  {
  }

  // ---------------------------------------------------------------------------
  // Signup
  // ---------------------------------------------------------------------------

  /** Reference predicate: the outcomes on which `signup` resolves `true` — a
      2xx response whose body parses, `null` included. */
  predicate SignupSucceeds(outcome: FetchOutcome) {
    outcome.Response? && StatusOk(outcome.status) && outcome.body.Parsed?
  }

  datatype SignupResult = SignupResult(state: State, ok: bool)

  /** `signup(data)` settling with `outcome`: it reports the outcome and clears
      `isLoading`; it never logs the new user in. */
  function Signup(s: State, outcome: FetchOutcome): (r: SignupResult)
    ensures r.ok <==> SignupSucceeds(outcome)
    ensures r.state == s.(isLoading := false)
  {
    match outcome
    case Response(status, body) => SignupResult(s.(isLoading := false), body.Parsed? && StatusOk(status))
    case NetworkError => SignupResult(s.(isLoading := false), false)
    case Aborted => SignupResult(s.(isLoading := false), false)
  }

  /** Signup succeeds on every outcome login does, and also on a 2xx `null` body. */
  lemma SignupAcceptsMore(outcome: FetchOutcome)
    ensures LoginSucceeds(outcome) ==> SignupSucceeds(outcome)
    ensures SignupSucceeds(outcome) && !LoginSucceeds(outcome) <==>
      outcome.Response? && StatusOk(outcome.status) && outcome.body == Parsed(JsonNull)
  {
  }

  // ---------------------------------------------------------------------------
  // Logout
  // ---------------------------------------------------------------------------

  /** `logout()`: forget the user and remove both keys, whatever was stored. */
  function Logout(s: State): (r: State)
    ensures r.user.None? && r.isLoading == s.isLoading
    ensures UserKey !in r.storage && TokenKey !in r.storage
    ensures forall k :: k != UserKey && k != TokenKey ==>
      (k in r.storage <==> k in s.storage) && (k in s.storage ==> r.storage[k] == s.storage[k])
  {
    State(None, s.isLoading, s.storage - {UserKey, TokenKey})
  }

  lemma LogoutIdempotent(s: State)
    ensures Logout(Logout(s)) == Logout(s)
  {
    assert Logout(s).storage - {UserKey, TokenKey} == Logout(s).storage;
  }

  /** After a logout the next mount restores no session. */
  lemma LogoutThenRestore(s: State)
    ensures Restore(Logout(s).storage) == Restored(State(None, false, Logout(s).storage))
  {
  }
}

=== FILE: wrappers.dfy ===
/** The optional value used throughout the model for JavaScript's `undefined`
    arguments, Python's `None` and absent map entries. */
module Wrappers {

  datatype Option<+T> = None | Some(value: T) {

    /** Returns the value held in Some, or `default` for None. */
    function GetOr(default: T): T {
      match this
      case Some(v) => v
      case None => default
    }
  }
}
